=== FILE: README.md ===
# Text-to-SQL preprocessing and scoring, modelled in Dafny

This project models the pure string and record logic behind the scripts of a T5 text-to-SQL
pipeline on the Spider dataset. There are three pieces:

- **SQL normalisation and exact-match scoring** (`update_exact_matches.py`).
  - `normalize_sql` lower-cases a query, collapses its whitespace, turns `"` into `'`, deletes the
    whitespace around `, ( ) = < > <= >= != <>` with ten regular-expression substitutions, and
    trims the result.
  - The loop in `main` flags a prediction as an exact match when its normalised query equals its
    normalised gold query. It counts both the matches and the flags it had to switch on.
- **Schema flattening** (`preprocess/schema_utils.py`).
  - `flatten_schema` renders a database schema as `Tables: t1(c1, c2), t2(...)`. It skips global
    columns, files every other column under its table through a Python list lookup, and keeps
    first-occurrence order.
  - `load_tables` indexes schema records by `db_id`.
- **Training pairs** (`preprocess/dataset_builder.py`).
  - `build_t5_input_output_pairs` turns each example into an `(input, target, db_id)` triple. The
    input is `question: <question> schema: <flattened schema>`.

Modules, leaves first:

| file | module | what it holds |
|---|---|---|
| `results.dfy` | `Results` | `Option` and `Result` with failure propagation |
| `strings.dfy` | `Strings` | the Python string primitives used: ASCII whitespace, `lower`, `replace`, `split`, `join`, `strip`, substring search |
| `regex_sub.dfy` | `RegexSub` | one `re.sub(r'\s*TOK\s*', TOK, s)` call: leftmost, greedy matching and its properties |
| `sql_normalize.dfy` | `SqlNormalize` | `normalize_sql` and its properties |
| `sql_examples.dfy` | `SqlExamples`, `QueryWords` | the worked example `SELECT * FROM T` versus `select  *   from t` |
| `exact_match.dfy` | `ExactMatch` | the match-marking loop and its counters |
| `schema_utils.dfy` | `SchemaUtils` | `flatten_schema` (a loop-by-loop method and a loop-free definition), and the `load_tables` map |
| `schema_example.dfy` | `SchemaExample` | the two-table mock schema and its flattened text |
| `dataset_builder.dfy` | `DatasetBuilder` | `build_t5_input_output_pairs` |

Modelling choices:

- **Characters.** Characters are ASCII. Whitespace is a chosen subset of Python's: space, tab,
  line feed, carriage return, form feed and vertical tab. The separators U+001C to U+001F, which
  Python's `split`, `strip` and `\s` also treat as whitespace, are ordinary characters here.
  `lower()` changes only `A`-`Z`.
- **Substitutions.** Each substitution is modelled once, generically, as `RegexSub.SubAround`.
  Every literal is non-empty and does not start with whitespace, so the greedy `\s*` never needs
  to backtrack.
- **Python errors** become `Result` values:
  - `table_names[table_id]` follows Python indexing. A negative id other than `-1` counts from
    the end, and an id outside `-len .. len-1` is `SchemaUtils.TableIndexOutOfRange`. A column
    owned by `-1` or named `*` is skipped before the lookup, as the code does.
  - `schemas[db_id]` on an unknown id is `DatasetBuilder.UnknownDatabase`, the `KeyError` the
    code raises.
  - A failing `flatten_schema` is `DatasetBuilder.BadSchema`.
- **Verification parameters.** The scoring loop and the pair builder take their library steps as
  parameters: the normaliser in `ExactMatch.MarkWith`, and the flattener and trimmer in
  `DatasetBuilder.BuildWith`. `ExactMatch.MarkExactMatches` and `DatasetBuilder.BuildPairs`
  instantiate them with `NormalizeSql`, `Flatten` and `Strip`. `SchemaUtils.FlattenSchema` is
  proved to compute `Flatten`.
- **Unowned columns.** A column is skipped when its table index is `-1` or its name is `*`. Any
  other negative index counts from the end, as a Python list index does, so the column is filed
  under that table.
- **Repeated table names.** They behave as the dict in the code does. The name keeps its first
  position, and the columns of every occurrence are merged under it.

## Model

| member | source | states |
|---|---|---|
| SqlNormalize.NormalizeSql | update_exact_matches.py:6-7 | empty input normalises to the empty string |
| SqlNormalize.NormalizedCanonical | update_exact_matches.py:10-27 | every result is single-spaced with no space at either end, has no upper-case letter and no `"`, has no space on either side of `, ( ) = < >` and none in front of `!=` |
| SqlNormalize.NormalizedContent | update_exact_matches.py:10-25 | only whitespace changes, apart from lower-casing and quote unification: the non-whitespace characters of the result are those of the lower-cased, quote-unified input, in the same order |
| SqlNormalize.FixedPoints | update_exact_matches.py:4-27 | a string normalises to itself if and only if it has the canonical shape |
| SqlNormalize.Idempotent | update_exact_matches.py:4-27 | normalising twice gives the same as normalising once |
| SqlNormalize.CaseAndSpacingIgnored | update_exact_matches.py:10 | two queries whose words agree up to letter case normalise alike |
| SqlNormalize.EmptyWords | update_exact_matches.py:6-10 | a query with no words (only whitespace) normalises to the empty string |
| SqlNormalize.NormalizeKeepsGap | update_exact_matches.py:10-27 | a space between two words survives when the first word does not end with one of `, ( ) = < >` and the second does not start with one of them or `!`: the result is the substituted words before it, that space, and the substituted words after it |
| SqlNormalize.NormalizeDropsWs | update_exact_matches.py:10-27 | after lower-casing, collapsing and quote unification, the rest of the normalisation only deletes whitespace: nothing is inserted or moved |
| SqlNormalize.Collapse | update_exact_matches.py:10 | `' '.join(s.split())` is single-spaced, has exactly the words of `s` (splitting it again gives them back), and keeps every non-whitespace character in order |
| SqlNormalize.Prepare | update_exact_matches.py:10-13 | after lower-casing, collapsing and quote unification the text is single-spaced, has no upper-case letter and no `"`, and keeps the content of the input |
| SqlNormalize.PreparedWords | update_exact_matches.py:10-13 | before the substitutions the text is the words of the lower-cased input, each with `"` turned into `'`, joined by single spaces, and splitting it gives exactly those words |
| SqlNormalize.Tighten | update_exact_matches.py:16-25 | the ten substitutions keep the non-whitespace characters, in order |
| SqlNormalize.TightenDrops | update_exact_matches.py:16-25 | the ten substitutions only delete whitespace: the result is the input with some whitespace characters removed, nothing inserted or moved |
| SqlNormalize.TightenGap | update_exact_matches.py:16-25 | the ten substitutions keep a single space whose neighbours are not whitespace, when no literal ends the text before it and none starts the text after it, and rewrite each side on its own |
| SqlNormalize.SubAll | update_exact_matches.py:16-25 | a run of substitutions keeps the non-whitespace characters in order and maps the empty string to itself |
| SqlNormalize.SubAllDrops | update_exact_matches.py:16-25 | a run of substitutions only deletes whitespace: nothing is inserted or moved |
| SqlNormalize.SubAllGap | update_exact_matches.py:16-25 | a run of substitutions whose literals end with one of `, ( ) = < >` and start with one of them or `!` keeps a space between text not ending and text not starting with those characters |
| RegexSub.MatchLen | update_exact_matches.py:16 | the match of `\s*TOK\s*` at the start of a string: zero exactly when the literal does not follow the leading whitespace, otherwise whitespace, the literal, and all the whitespace after it |
| RegexSub.SubAround | update_exact_matches.py:16 | one substitution keeps the non-whitespace characters in order, introduces no new character, never lengthens the text, keeps a non-empty text non-empty and keeps a non-whitespace first character |
| RegexSub.SubAroundDrops | update_exact_matches.py:16 | one substitution only deletes whitespace: the result is the input with some whitespace characters removed, nothing inserted or moved |
| RegexSub.SubAroundGap | update_exact_matches.py:16 | one substitution keeps a single space between `a` and `b` when no whitespace touches it, the literal does not end `a` and does not start `b`, and then rewrites `a` and `b` each on its own |
| RegexSub.SubAroundLast | update_exact_matches.py:16 | one substitution keeps a non-whitespace last character |
| RegexSub.Tightens | update_exact_matches.py:16-21 | on single-spaced text, after the substitution for a one-character literal, no space is next to that character |
| RegexSub.NoSpaceBefore | update_exact_matches.py:22-25 | on single-spaced text, after the substitution for a two-character literal of two different characters, no space stands in front of it |
| RegexSub.KeepsTight | update_exact_matches.py:16-25 | on single-spaced text, a later substitution does not put a space back next to a character an earlier one tightened |
| RegexSub.KeepsSingleSpaced | update_exact_matches.py:16-25 | a substitution keeps a single-spaced text single-spaced |
| RegexSub.Unchanged | update_exact_matches.py:16-25 | on text whose only whitespace is plain spaces, a substitution leaves the text alone when no space touches the literal |
| SqlExamples.CaseAndSpacingExample | update_exact_matches.py:10 | `SELECT * FROM T` and `select  *   from t` normalise to the same string |
| Strings.Split | update_exact_matches.py:10 | `str.split()` yields non-empty words without whitespace whose concatenation is the non-whitespace content |
| Strings.SplitJoin | update_exact_matches.py:10 | joining whitespace-free words with single spaces and splitting again gives the words back |
| Strings.JoinSplitSingleSpaced | update_exact_matches.py:10 | a single-spaced text is rebuilt exactly by splitting and joining with single spaces |
| Strings.Strip | update_exact_matches.py:27 | `str.strip()` returns the slice between the leading and the trailing whitespace runs, keeps the content, and neither end of it is whitespace |
| Strings.StripTrimmed | update_exact_matches.py:27 | `str.strip()` leaves a text with no whitespace at either end unchanged |
| Strings.StripDrops | update_exact_matches.py:27 | `str.strip()` only deletes whitespace |
| ExactMatch.MarkExactMatches | update_exact_matches.py:44-55 | the loop keeps every record's query, gold and db id, flags exactly the records already flagged or whose normalised queries agree (so a flag is never cleared), counts the matches and the newly set flags, and `updated_count <= exact_matches <= len(data)` |
| ExactMatch.MarkWith | update_exact_matches.py:44-55 | the loop's records and counters equal the per-record marking and the match counts, for any normaliser |
| ExactMatch.Mark | update_exact_matches.py:51-54 | one record keeps its query, gold and db id and is flagged exactly when it was flagged before or it matches |
| ExactMatch.CountBounds | update_exact_matches.py:39-55 | the newly set flags are at most the matches, which are at most the records |
| ExactMatch.FlagsAfterMarking | update_exact_matches.py:52-54 | the number of flags grows by exactly `updated_count` |
| ExactMatch.MarkKeepsMatches | update_exact_matches.py:44-55 | marking does not change which records match, record by record, nor how many match |
| ExactMatch.MarkTwice | update_exact_matches.py:44-55 | a second run changes no record and sets no flag |
| ExactMatch.SpacingAndCaseMatch | update_exact_matches.py:48-53 | a prediction that differs from its gold query only in letter case and spacing gets flagged |
| SchemaUtils.PyIndex | preprocess/schema_utils.py:19 | `xs[i]` on a list of length `n` reads a position exactly when `-n <= i < n`: `i` itself, or `i + n` for a negative `i` |
| SchemaUtils.Owner | preprocess/schema_utils.py:17-19 | a column is filed under a table exactly when it is not skipped and its lookup succeeds, and the table is one of the schema's |
| SchemaUtils.FirstBad | preprocess/schema_utils.py:16-19 | finds the first column whose lookup fails, or none when every lookup succeeds |
| SchemaUtils.ColumnsOf | preprocess/schema_utils.py:17-18 | the global column `*` is never among a table's columns |
| SchemaUtils.Distinct | preprocess/schema_utils.py:14 | the dict's keys are exactly the table names, each once |
| SchemaUtils.FiledOnce | preprocess/schema_utils.py:14-20 | a column that is neither skipped nor out of range lands in exactly one table's list, the one its index names |
| SchemaUtils.FiledColumns | preprocess/schema_utils.py:14-20 | a table's list holds a name exactly when some column of that name is filed under the table |
| SchemaUtils.Flatten | preprocess/schema_utils.py:9-29 | the text starts with `Tables: `; the call fails exactly when some non-skipped column's table index is out of range, and then it reports the first such column and its index |
| SchemaUtils.FlattenSchema | preprocess/schema_utils.py:9-29 | the three loops of `flatten_schema` compute the loop-free definition |
| SchemaUtils.ColumnsOfAppend | preprocess/schema_utils.py:16-20 | within a table, columns keep their order from `column_names` |
| SchemaUtils.SkippedNeverListed | preprocess/schema_utils.py:17-18 | inserting a `-1`-owned or `*` column anywhere changes no table's columns |
| SchemaUtils.ColumnsOfMembers | preprocess/schema_utils.py:16-20 | a name is among a table's columns if and only if some column with that name is filed under the table |
| SchemaUtils.EmptyTable | preprocess/schema_utils.py:24-26 | a table without columns renders as `name()` |
| SchemaUtils.DistinctInOrder | preprocess/schema_utils.py:14 | the tables come in the order of their first occurrence in `table_names` |
| SchemaUtils.IndexOf | preprocess/schema_utils.py:14 | the first position of a name in a list |
| SchemaUtils.LoadTables | preprocess/schema_utils.py:7 | the map's keys are exactly the records' `db_id`s, and each value is a record carrying its key |
| SchemaUtils.LastWins | preprocess/schema_utils.py:7 | on a repeated `db_id` the last record carrying it is the one stored |
| SchemaExample.MockSchemaText | test_picard.py:22-34 | the mock schema (`users`, `orders` and six columns) flattens to `Tables: users(id, name), orders(id, user_id, total)`, the text used at test_picard.py:45 |
| DatasetBuilder.BuildPairs | preprocess/dataset_builder.py:13-29 | one triple per example, in order, each holding the stripped question with the stripped flattened schema, the stripped query and the unchanged db id; it fails exactly when some example's database is unknown or its schema does not flatten, and then it reports the first such example |
| DatasetBuilder.BuildWith | preprocess/dataset_builder.py:15-29 | the same for any flattener and trimmer |
| DatasetBuilder.TargetStripped | preprocess/dataset_builder.py:19 | the target has nothing left to strip |
| DatasetBuilder.StripTwice | preprocess/dataset_builder.py:19 | `str.strip()` is idempotent |
| DatasetBuilder.InputParts | preprocess/dataset_builder.py:25 | the input text splits back into the question and the schema text |
| DatasetBuilder.SchemaTextKept | preprocess/dataset_builder.py:22 | for a schema with at least one table, stripping the flattened text changes nothing |
| DatasetBuilder.InputCarriesSchema | preprocess/dataset_builder.py:22-25 | for a database with tables, the input carries the flattened schema text exactly as `flatten_schema` returns it |
| DatasetBuilder.EmptySchemaText | preprocess/dataset_builder.py:22 | a schema without tables flattens to `Tables: `, and the input receives `Tables:` without the trailing space |

## Left out

- File input and output are not modelled. This covers the JSON load and dump, the TSV writer, directory creation, and every `print`, including the progress lines and the sample listing at update_exact_matches.py:72-81. Records arrive as sequences of Dafny datatypes.
- The accuracy percentage at update_exact_matches.py:68 is not modelled: it is floating-point arithmetic. With no predictions at all, that line divides by zero.
- `normalize_sql(None)`, which returns `''` through `if not sql`, is not modelled. Records carry strings, and the empty string has the same outcome.
- Python's Unicode `str.lower()` and Unicode `\s` are not modelled; characters are ASCII, as described above.
- The separators U+001C to U+001F are treated as ordinary characters, although Python's `split`, `strip` and `\s` treat them as whitespace. For example, `normalize_sql("a\x1cb")` is `a b` in Python, but the model keeps the separator.
- A `KeyError` for a missing JSON field (`question`, `query`, `exact_match`, `table_names_original`, ...) is not modelled: the datatypes always carry those fields.
- `RegexSub.NoSpaceBefore`: for `<= >= != <>` it states no space in front of the literal, not after it. The space after these literals is already gone through the `=`, `<` and `>` substitutions, and `SqlNormalize.NormalizedCanonical` states the combined effect.
- `SqlNormalize.NormalizeSql` carries only the empty-input case in its own contract. Its other properties are the lemmas `NormalizedCanonical`, `NormalizedContent`, `NormalizeDropsWs`, `NormalizeKeepsGap`, `FixedPoints` and `Idempotent`, which keeps the proofs of its callers small.
- `SqlNormalize.Tighten`, `SqlNormalize.SubAll` and `RegexSub.SubAround` state in their own contracts only that the non-whitespace characters stay in order. That they only delete whitespace is stated by the lemmas `TightenDrops`, `SubAllDrops` and `SubAroundDrops`, and which spaces they keep by the lemmas `TightenGap`, `SubAllGap` and `SubAroundGap`. Those lemmas give a sufficient condition, not an exact one: a space in front of a word that starts with `!` but not `!=` also survives, but `NormalizeKeepsGap` does not claim it.
- The Picard decoder wrapper, the test script's model calls, training, evaluation, `convert.py` and `explore_spider.py` are not part of this model. They are model loading, tokenisation, generation and foreign calls. The mock schema from test_picard.py appears only as a worked example.

=== FILE: dataset_builder.dfy ===
/** `build_t5_input_output_pairs` of preprocess/dataset_builder.py: each Spider example becomes an
    (input, target, db_id) triple whose input carries the question and the flattened schema of its
    database. */
module DatasetBuilder {
  import opened Strings
  import opened Results
  import opened SchemaUtils

  /** The fields of a Spider example the builder reads. */
  datatype Example = Example(question: string, dbId: string, query: string)

  /** The `(input_text, target_text, db_id)` triple. */
  datatype Pair = Pair(input: string, target: string, dbId: string)

  /** Why the builder stops: `schemas[db_id]` raises `KeyError`, or `flatten_schema` raises. */
  datatype BuildError =
    | UnknownDatabase(position: nat, dbId: string)
    | BadSchema(position: nat, dbId: string, cause: SchemaError)

  /** `flatten_schema`, stated without its loops (`FlattenSchema` computes it), with `str.strip`. */
  const Script := Steps(Flatten, Strip)

  /** The two library steps the builder applies: the schema flattener and the whitespace
      trimmer. */
  datatype Steps = Steps(flatten: Schema -> Result<string, SchemaError>, strip: string -> string)

  /** An example whose database is known and whose schema flattens. */
  predicate Usable(st: Steps, schemas: map<string, Schema>, ex: Example) {
    ex.dbId in schemas && st.flatten(schemas[ex.dbId]).Ok?
  }

  /** The model input: `f"question: {question} schema: {schema}"`. */
  function InputText(question: string, schema: string): string {
    "question: " + question + " schema: " + schema
  }

  /** The triple for an example whose schema flattens to `flat`. */
  function PairOf(strip: string -> string, ex: Example, flat: string): Pair {
    Pair(InputText(strip(ex.question), strip(flat)), strip(ex.query), ex.dbId)
  }

  /** The triple for a usable example. */
  function Expected(st: Steps, schemas: map<string, Schema>, ex: Example): Pair
    requires Usable(st, schemas, ex)
  {
    PairOf(st.strip, ex, st.flatten(schemas[ex.dbId]).value)
  }

  /** The error the builder raises at `position` for an example that is not usable. */
  function Failure(st: Steps, schemas: map<string, Schema>, ex: Example, position: nat): BuildError
    requires !Usable(st, schemas, ex)
  {
    if ex.dbId !in schemas then UnknownDatabase(position, ex.dbId)
    else BadSchema(position, ex.dbId, st.flatten(schemas[ex.dbId]).error)
  }

  /** `build_t5_input_output_pairs(examples, schemas)`: one triple per example, in order, or the
      error of the first example it cannot build. */
  method BuildPairs(examples: seq<Example>, schemas: map<string, Schema>)
    returns (r: Result<seq<Pair>, BuildError>)
    ensures r.Ok? <==> forall i :: 0 <= i < |examples| ==> Usable(Script, schemas, examples[i])
    ensures r.Ok? ==>
      && |r.value| == |examples|
      && forall i :: 0 <= i < |examples| ==> r.value[i] == Expected(Script, schemas, examples[i])
    ensures r.Err? ==>
      && r.error.position < |examples|
      && (forall j :: 0 <= j < r.error.position ==> Usable(Script, schemas, examples[j]))
      && !Usable(Script, schemas, examples[r.error.position])
      && r.error == Failure(Script, schemas, examples[r.error.position], r.error.position)
  {
    r := BuildWith(Script, examples, schemas);
  }

  /** The loop, for any flattener and trimmer. */
  method BuildWith(st: Steps, examples: seq<Example>, schemas: map<string, Schema>)
    returns (r: Result<seq<Pair>, BuildError>)
    ensures r.Ok? <==> forall i :: 0 <= i < |examples| ==> Usable(st, schemas, examples[i])
    ensures r.Ok? ==>
      && |r.value| == |examples|
      && forall i :: 0 <= i < |examples| ==> r.value[i] == Expected(st, schemas, examples[i])
    ensures r.Err? ==>
      && r.error.position < |examples|
      && (forall j :: 0 <= j < r.error.position ==> Usable(st, schemas, examples[j]))
      && !Usable(st, schemas, examples[r.error.position])
      && r.error == Failure(st, schemas, examples[r.error.position], r.error.position)
  {
    var pairs: seq<Pair> := [];
    var i := 0;
    while i < |examples|
      invariant 0 <= i <= |examples|
      invariant |pairs| == i
      invariant forall j :: 0 <= j < i ==> Usable(st, schemas, examples[j])
      invariant forall j :: 0 <= j < i ==> pairs[j] == Expected(st, schemas, examples[j])
    {
      var ex := examples[i];
      var question := st.strip(ex.question);
      var dbId := ex.dbId;
      var sql := st.strip(ex.query);
      if dbId !in schemas {
        return Err(UnknownDatabase(i, dbId));
      }
      var flat := st.flatten(schemas[dbId]);
      if flat.Err? {
        return Err(BadSchema(i, dbId, flat.error));
      }
      var schema := st.strip(flat.value);
      pairs := pairs + [Pair(InputText(question, schema), sql, dbId)];
      i := i + 1;
    }
    return Ok(pairs);
  }

  // ----- What the triples hold -----

  /** The target is already stripped: stripping it again changes nothing. */
  lemma TargetStripped(ex: Example, flat: string)
    ensures Strip(PairOf(Script.strip, ex, flat).target) == PairOf(Script.strip, ex, flat).target
  {
    StripTwice(ex.query);
  }

  /** `str.strip()` is idempotent. */
  lemma StripTwice(s: string)
    ensures Strip(Strip(s)) == Strip(s)
  {
    StripTrimmed(Strip(s));
  }

  /** The input splits back into the question and the schema text. */
  lemma InputParts(question: string, schema: string)
    ensures var input := InputText(question, schema);
      && input[..10] == "question: "
      && input[10..10 + |question|] == question
      && input[10 + |question|..19 + |question|] == " schema: "
      && input[19 + |question|..] == schema
  {
  }

  /** A schema with at least one table flattens to a text with nothing to strip, so the input
      carries it unchanged. */
  lemma SchemaTextKept(s: Schema)
    requires Flatten(s).Ok? && s.tableNames != []
    ensures Strip(Flatten(s).value) == Flatten(s).value
  {
    var parts := Parts(s);
    assert s.tableNames[0] in Distinct(s.tableNames);
    PartsEndInParen(s);
    JoinLast(", ", parts);
    var text := Flatten(s).value;
    assert text == "Tables: " + Join(", ", parts);
    assert text[|text| - 1] == ')';
    assert text[0] == 'T';
    StripTrimmed(text);
  }

  /** For a database with tables, the input carries the stripped question and the flattened schema
      text exactly as `flatten_schema` returns it. */
  lemma InputCarriesSchema(schemas: map<string, Schema>, ex: Example)
    requires Usable(Script, schemas, ex) && schemas[ex.dbId].tableNames != []
    ensures Expected(Script, schemas, ex).input
         == InputText(Strip(ex.question), Flatten(schemas[ex.dbId]).value)
  {
    SchemaTextKept(schemas[ex.dbId]);
  }

  /** A schema without tables flattens to `"Tables: "`, and the input gets `"Tables:"`. */
  lemma EmptySchemaText(s: Schema)
    requires Flatten(s).Ok? && s.tableNames == []
    ensures Flatten(s).value == "Tables: "
    ensures Strip(Flatten(s).value) == "Tables:"
  {
    assert Parts(s) == [];
    var text := Flatten(s).value;
    assert text == "Tables: ";
    StripTablesLabel(text);
  }

  lemma StripTablesLabel(text: string)
    requires text == "Tables: "
    ensures Strip(text) == "Tables:"
  {
    assert LeadingWs(text) == 0;
    assert text[0..] == text;
    assert TrimEnd(text[..7]) == 7;
    assert text[..7] + [text[7]] == text;
    assert TrimEnd(text) == 7;
  }

  /** Every part ends with its closing parenthesis. */
  lemma PartsEndInParen(s: Schema)
    ensures forall k :: 0 <= k < |Parts(s)| ==>
      Parts(s)[k] != [] && Parts(s)[k][|Parts(s)[k]| - 1] == ')'
  {
  }

  /** A join of non-empty parts ends as its last part does. */
  lemma {:induction false} JoinLast(sep: string, parts: seq<string>)
    requires parts != []
    requires forall k :: 0 <= k < |parts| ==> parts[k] != [] && parts[k][|parts[k]| - 1] == ')'
    ensures Join(sep, parts) != [] && Join(sep, parts)[|Join(sep, parts)| - 1] == ')'
    decreases |parts|
  {
    if |parts| > 1 {
      JoinLast(sep, parts[1..]);
    }
  }
}

=== FILE: exact_match.dfy ===
/** The match-marking loop of update_exact_matches.py: a prediction whose normalised query equals
    its normalised gold query is flagged as an exact match, and the loop counts the matches and
    the flags it had to switch on. */
module ExactMatch {
  import opened Strings
  import opened SqlNormalize

  /** One record of the predictions file. */
  datatype Prediction = Prediction(query: string, gold: string, dbId: string, exactMatch: bool)

  /** The comparison the loop makes, for a normaliser `norm`; the script uses `NormalizeSql`. */
  predicate Matches(norm: string -> string, p: Prediction) {
    norm(p.query) == norm(p.gold)
  }

  /** A matching record that is not flagged yet: the loop switches its flag on. */
  predicate Unflagged(norm: string -> string, p: Prediction) {
    Matches(norm, p) && !p.exactMatch
  }

  /** The record after the loop body has looked at it. */
  function Mark(norm: string -> string, p: Prediction): (q: Prediction)
    ensures q.query == p.query && q.gold == p.gold && q.dbId == p.dbId
    ensures q.exactMatch == (p.exactMatch || Matches(norm, p))
  {
    if Unflagged(norm, p) then p.(exactMatch := true) else p
  }

  /** Every record after the loop. */
  function MarkAll(norm: string -> string, data: seq<Prediction>): (out: seq<Prediction>)
    ensures |out| == |data|
    ensures forall i :: 0 <= i < |data| ==> out[i] == Mark(norm, data[i])
  {
    seq(|data|, i requires 0 <= i < |data| => Mark(norm, data[i]))
  }

  /** How many records compare equal after normalisation. */
  function CountMatches(norm: string -> string, data: seq<Prediction>): nat {
    if data == [] then 0
    else (if Matches(norm, data[0]) then 1 else 0) + CountMatches(norm, data[1..])
  }

  /** How many records compare equal but are not flagged yet. */
  function CountUnflagged(norm: string -> string, data: seq<Prediction>): nat {
    if data == [] then 0
    else (if Unflagged(norm, data[0]) then 1 else 0) + CountUnflagged(norm, data[1..])
  }

  /** How many records carry the flag. */
  function CountFlags(data: seq<Prediction>): nat {
    if data == [] then 0 else (if data[0].exactMatch then 1 else 0) + CountFlags(data[1..])
  }

  /** The loop of `main` (update_exact_matches.py), which normalises with `NormalizeSql`: returns
      the updated records, `exact_matches` and `updated_count`. */
  method MarkExactMatches(data: seq<Prediction>) returns (out: seq<Prediction>, exactMatches: nat,
                                                          updatedCount: nat)
    ensures |out| == |data|
    ensures forall i :: 0 <= i < |data| ==>
      out[i].query == data[i].query && out[i].gold == data[i].gold && out[i].dbId == data[i].dbId
    ensures forall i :: 0 <= i < |data| ==>
      out[i].exactMatch
        == (data[i].exactMatch || NormalizeSql(data[i].query) == NormalizeSql(data[i].gold))
    ensures exactMatches == CountMatches(NormalizeSql, data)
    ensures updatedCount == CountUnflagged(NormalizeSql, data)
    ensures CountFlags(out) == CountFlags(data) + updatedCount
    ensures updatedCount <= exactMatches <= |data|
  {
    out, exactMatches, updatedCount := MarkWith(NormalizeSql, data);
  }

  /** The loop with the normaliser as a parameter. */
  method MarkWith(norm: string -> string, data: seq<Prediction>)
    returns (out: seq<Prediction>, exactMatches: nat, updatedCount: nat)
    ensures out == MarkAll(norm, data)
    ensures exactMatches == CountMatches(norm, data)
    ensures updatedCount == CountUnflagged(norm, data)
    ensures CountFlags(out) == CountFlags(data) + updatedCount
    ensures updatedCount <= exactMatches <= |data|
  {
    out := [];
    exactMatches := 0;
    updatedCount := 0;
    var i := 0;
    while i < |data|
      invariant 0 <= i <= |data|
      invariant out == MarkAll(norm, data[..i])
      invariant exactMatches == CountMatches(norm, data[..i])
      invariant updatedCount == CountUnflagged(norm, data[..i])
    {
      var item := data[i];
      var queryNorm := norm(item.query);
      var goldNorm := norm(item.gold);
      if queryNorm == goldNorm {
        if !item.exactMatch {
          item := item.(exactMatch := true);
          updatedCount := updatedCount + 1;
        }
        exactMatches := exactMatches + 1;
      }
      CountsSnoc(norm, data[..i], data[i]);
      assert data[..i + 1] == data[..i] + [data[i]];
      out := out + [item];
      i := i + 1;
    }
    assert data[..i] == data;
    FlagsAfterMarking(norm, data);
    CountBounds(norm, data);
  }

  // ----- Counting lemmas -----

  /** The counts of a sequence with one more record. */
  lemma {:induction false} CountsSnoc(norm: string -> string, data: seq<Prediction>, p: Prediction)
    ensures CountMatches(norm, data + [p])
         == CountMatches(norm, data) + (if Matches(norm, p) then 1 else 0)
    ensures CountUnflagged(norm, data + [p])
         == CountUnflagged(norm, data) + (if Unflagged(norm, p) then 1 else 0)
    decreases |data|
  {
    if data == [] {
      assert [] + [p] == [p];
    } else {
      assert (data + [p])[1..] == data[1..] + [p];
      CountsSnoc(norm, data[1..], p);
    }
  }

  /** `updated_count <= exact_matches <= len(data)`. */
  lemma {:induction false} CountBounds(norm: string -> string, data: seq<Prediction>)
    ensures CountUnflagged(norm, data) <= CountMatches(norm, data) <= |data|
    decreases |data|
  {
    if data != [] {
      CountBounds(norm, data[1..]);
    }
  }

  /** Marking switches on exactly the flags the loop counts as updated. */
  lemma {:induction false} FlagsAfterMarking(norm: string -> string, data: seq<Prediction>)
    ensures CountFlags(MarkAll(norm, data)) == CountFlags(data) + CountUnflagged(norm, data)
    decreases |data|
  {
    if data != [] {
      assert MarkAll(norm, data)[1..] == MarkAll(norm, data[1..]);
      FlagsAfterMarking(norm, data[1..]);
    }
  }

  // ----- Running the loop again -----

  /** Marking does not change which records match, nor how many do. */
  lemma {:induction false} MarkKeepsMatches(norm: string -> string, data: seq<Prediction>)
    ensures forall i :: 0 <= i < |data| ==> Matches(norm, MarkAll(norm, data)[i]) == Matches(norm, data[i])
    ensures CountMatches(norm, MarkAll(norm, data)) == CountMatches(norm, data)
    decreases |data|
  {
    if data != [] {
      assert MarkAll(norm, data)[1..] == MarkAll(norm, data[1..]);
      MarkKeepsMatches(norm, data[1..]);
    }
  }

  /** A second run changes nothing: every matching record is already flagged, so nothing is
      updated, and the records come back as they went in. */
  lemma {:induction false} MarkTwice(norm: string -> string, data: seq<Prediction>)
    ensures MarkAll(norm, MarkAll(norm, data)) == MarkAll(norm, data)
    ensures CountUnflagged(norm, MarkAll(norm, data)) == 0
    decreases |data|
  {
    if data != [] {
      assert MarkAll(norm, data)[1..] == MarkAll(norm, data[1..]);
      MarkTwice(norm, data[1..]);
    }
  }

  /** A prediction that differs from its gold query only in letter case and spacing is flagged. */
  lemma SpacingAndCaseMatch(p: Prediction)
    requires Split(Lower(p.query)) == Split(Lower(p.gold))
    ensures Mark(NormalizeSql, p).exactMatch
  {
    CaseAndSpacingIgnored(p.query, p.gold);
  }
}

=== FILE: regex_sub.dfy ===
/** One substitution `re.sub(r'\s*TOK\s*', 'TOK', s)` of `normalize_sql`, for a literal `TOK`,
    and what it does to a string whose only whitespace is single spaces. */
module RegexSub {
  import opened Strings

  /** The literal a substitution wraps in `\s*`: non-empty and free of whitespace. */
  predicate IsToken(tok: string) {
    tok != [] && NoSpace(tok)
  }

  /** Length of the match of `\s*tok\s*` at the start of `s`, or 0 when there is none. As `tok`
      starts with a non-whitespace character, the greedy `\s*` in front never gives whitespace
      back: a match exists exactly when `tok` follows the leading whitespace run, and it then
      swallows the whole whitespace run after `tok`. */
  function MatchLen(s: string, tok: string): (n: nat)
    requires IsToken(tok)
    ensures n <= |s|
    ensures n == 0 <==> !StartsWith(s[LeadingWs(s)..], tok)
    ensures n > 0 ==> RemoveWs(s[..n]) == tok
    ensures n > 0 ==> n == |s| || !IsSpace(s[n])
    ensures n > 0 ==> n == LeadingWs(s) + |tok| + LeadingWs(s[LeadingWs(s) + |tok|..])
  {
    var k := LeadingWs(s);
    if StartsWith(s[k..], tok) then
      var j := k + |tok|;
      var m := LeadingWs(s[j..]);
      assert s[k..j] == s[k..][..|tok|];
      assert s[j..j + m] == s[j..][..m];
      assert j + m < |s| ==> s[j + m] == s[j..][m];
      MatchShape(s, tok, k, j, j + m);
      j + m
    else 0
  }

  /** Whitespace, then the literal, then whitespace: `RemoveWs` leaves the literal. */
  lemma MatchShape(s: string, tok: string, k: nat, j: nat, n: nat)
    requires IsToken(tok) && k <= j <= n <= |s|
    requires AllSpace(s[..k]) && s[k..j] == tok && AllSpace(s[j..n])
    ensures RemoveWs(s[..n]) == tok
  {
    RemoveWsAllSpace(s[..k]);
    RemoveWsNoSpace(tok);
    RemoveWsAllSpace(s[j..n]);
    assert s[0..k] == s[..k];
    RemoveWsSlices(s, 0, k, n);
    RemoveWsSlices(s, k, j, n);
    assert s[0..n] == s[..n];
  }

  /** `RemoveWs` of adjacent slices. */
  lemma RemoveWsSlices(s: string, a: nat, b: nat, c: nat)
    requires a <= b <= c <= |s|
    ensures RemoveWs(s[a..c]) == RemoveWs(s[a..b]) + RemoveWs(s[b..c])
  {
    assert s[a..c] == s[a..b] + s[b..c];
    RemoveWsAppend(s[a..b], s[b..c]);
  }

  /** `re.sub(r'\s*' + re.escape(tok) + r'\s*', tok, s)`: each occurrence of `tok`, found left to
      right without overlap, is replaced together with the whitespace runs on both sides of it by
      `tok` alone. */
  function SubAround(s: string, tok: string): (r: string)
    requires IsToken(tok)
    ensures RemoveWs(r) == RemoveWs(s)
    ensures forall c :: c in r ==> c in s || c in tok
    ensures |r| <= |s|
    ensures s != [] ==> r != []
    ensures s != [] && !IsSpace(s[0]) ==> r[0] == s[0]
    ensures s != [] && IsSpace(s[0]) ==> r[0] == s[0] || r[0] == tok[0]
    decreases |s|
  {
    if s == [] then []
    else
      var n := MatchLen(s, tok);
      if n > 0 then
        var tail := SubAround(s[n..], tok);
        MatchedContent(s, n, tok, tail);
        MatchHead(s, n, tok);
        assert forall c :: c in s[n..] ==> c in s;
        assert tok[0] in tok;
        tok + tail
      else
        var tail := SubAround(s[1..], tok);
        RemoveWsAppend([s[0]], s[1..]);
        RemoveWsAppend([s[0]], tail);
        assert s == [s[0]] + s[1..];
        [s[0]] + tail
  }

  /** Replacing a match by `tok` keeps the non-whitespace content. */
  lemma MatchedContent(s: string, n: nat, tok: string, tail: string)
    requires IsToken(tok) && 0 < n <= |s|
    requires RemoveWs(s[..n]) == tok
    requires RemoveWs(tail) == RemoveWs(s[n..])
    ensures RemoveWs(tok + tail) == RemoveWs(s)
  {
    assert RemoveWs(s) == tok + RemoveWs(s[n..]) by {
      assert s == s[..n] + s[n..];
      RemoveWsAppend(s[..n], s[n..]);
    }
    assert RemoveWs(tok + tail) == tok + RemoveWs(tail) by {
      RemoveWsAppend(tok, tail);
      RemoveWsNoSpace(tok);
    }
  }

  /** A match at a non-whitespace character starts right there. */
  lemma MatchHead(s: string, n: nat, tok: string)
    requires IsToken(tok) && s != []
    requires n == MatchLen(s, tok) && n > 0
    ensures !IsSpace(s[0]) ==> tok[0] == s[0]
  {
    if !IsSpace(s[0]) {
      assert s[0..] == s;
      assert s[..|tok|][0] == s[0];
    }
  }

  /** Neither side of `c` touches a space. */
  predicate Tight(s: string, c: char) {
    !Contains(s, [' ', c]) && !Contains(s, [c, ' '])
  }

  /** A suffix that misses a pattern: the contrapositive of `ContainsInSuffix`. */
  lemma MissesInSuffix(s: string, k: nat, p: string)
    requires k <= |s| && !Contains(s, p)
    ensures !Contains(s[k..], p)
  {
    if Contains(s[k..], p) {
      ContainsInSuffix(s, k, p);
    }
  }

  /** In a spaced suffix that starts with whitespace, that whitespace is one plain space followed
      by a non-whitespace character. */
  lemma AfterSpace(s: string)
    requires SpacedSuffix(s) && s != [] && IsSpace(s[0])
    ensures s[0] == ' ' && |s| >= 2 && !IsSpace(s[1]) && LeadingWs(s) == 1
  {
    assert s[0] in s;
    assert |s| >= 2 ==> s[1] in s;
    StartsWithPair(s, ' ', ' ');
    assert LeadingWs(s[1..]) == 0;
  }

  /** What the match case leaves to the recursive call: a spaced suffix, starting with a
      non-whitespace character and free of every pattern the whole input is free of. */
  lemma AfterMatch(s: string, tok: string, n: nat)
    requires IsToken(tok) && SpacedSuffix(s) && s != []
    requires n == MatchLen(s, tok) && n > 0
    ensures SpacedSuffix(s[n..])
    ensures s[n..] == [] || !IsSpace(s[n..][0])
    ensures forall c :: c in s[n..] ==> c in s
  {
    SpacedSuffixDrop(s, n);
  }

  /** A whitespace-free word contains no pattern with whitespace at position `j`. */
  lemma {:induction false} NoSpaceMisses(w: string, p: string, j: nat)
    requires NoSpace(w)
    requires j < |p| && IsSpace(p[j])
    ensures !Contains(w, p)
    decreases |w|
  {
    if w != [] {
      assert j < |w| ==> w[j] in w;
      assert forall c :: c in w[1..] ==> c in w;
      NoSpaceMisses(w[1..], p, j);
    }
  }

  /** The substitution keeps the shape of a spaced suffix. */
  lemma {:induction false} KeepsSpacedSuffix(s: string, tok: string)
    requires IsToken(tok) && SpacedSuffix(s)
    ensures SpacedSuffix(SubAround(s, tok))
    decreases |s|
  {
    var r := SubAround(s, tok);
    KeepsPairAbsent(s, tok, ' ', ' ');
    assert PlainSpaces(r) by {
      forall c | c in r && IsSpace(c)
        ensures c == ' '
      {
        assert c !in tok;
      }
    }
    if s != [] {
      var n := MatchLen(s, tok);
      if n > 0 {
        AfterMatch(s, tok, n);
        KeepsSpacedSuffix(s[n..], tok);
        var tail := SubAround(s[n..], tok);
        assert r == tok + tail;
        assert tok[|tok| - 1] in tok;
      } else {
        SpacedSuffixDrop(s, 1);
        KeepsSpacedSuffix(s[1..], tok);
        assert r == [s[0]] + SubAround(s[1..], tok);
        assert s[1..] == [] ==> s == [s[0]];
      }
    }
  }

  /** A single-spaced input gives a single-spaced result. */
  lemma KeepsSingleSpaced(s: string, tok: string)
    requires IsToken(tok) && SingleSpaced(s)
    ensures SingleSpaced(SubAround(s, tok))
  {
    KeepsSpacedSuffix(s, tok);
    assert s != [] ==> s[0] in s;
  }

  /** A two-character pattern made of a space and a non-whitespace character (in either order),
      or of two spaces, that is absent from the input stays absent: deleting single spaces joins
      only non-whitespace characters. */
  lemma {:induction false} KeepsPairAbsent(s: string, tok: string, a: char, b: char)
    requires IsToken(tok) && SpacedSuffix(s)
    requires (a == ' ' || !IsSpace(a)) && (b == ' ' || !IsSpace(b)) && (a == ' ' || b == ' ')
    requires !Contains(s, [a, b])
    ensures !Contains(SubAround(s, tok), [a, b])
    decreases |s|
  {
    if s != [] {
      var r := SubAround(s, tok);
      var n := MatchLen(s, tok);
      if n > 0 {
        AfterMatch(s, tok, n);
        MissesInSuffix(s, n, [a, b]);
        KeepsPairAbsent(s[n..], tok, a, b);
        var tail := SubAround(s[n..], tok);
        assert r == tok + tail;
        ContainsPairAppend(tok, tail, [a, b]);
        NoSpaceMisses(tok, [a, b], if a == ' ' then 0 else 1);
        assert tok[|tok| - 1] in tok;
      } else {
        SpacedSuffixDrop(s, 1);
        MissesInSuffix(s, 1, [a, b]);
        KeepsPairAbsent(s[1..], tok, a, b);
        var tail := SubAround(s[1..], tok);
        assert r == [s[0]] + tail;
        ContainsCons(s[0], tail, [a, b]);
        StartsWithPair(r, a, b);
        StartsWithPair(s, a, b);
        assert |s| >= 2 ==> s[1] in s;
      }
    }
  }

  /** A one-character substitution leaves no space next to its character. */
  lemma {:induction false} Tightens(s: string, tok: string)
    requires IsToken(tok) && |tok| == 1 && SpacedSuffix(s)
    ensures Tight(SubAround(s, tok), tok[0])
    decreases |s|
  {
    assert tok[0] in tok;
    var c := tok[0];
    if s != [] {
      var r := SubAround(s, tok);
      var n := MatchLen(s, tok);
      if n > 0 {
        AfterMatch(s, tok, n);
        Tightens(s[n..], tok);
        var tail := SubAround(s[n..], tok);
        assert r == [c] + tail;
        ContainsCons(c, tail, [' ', c]);
        ContainsCons(c, tail, [c, ' ']);
        StartsWithPair(r, ' ', c);
        StartsWithPair(r, c, ' ');
      } else {
        SpacedSuffixDrop(s, 1);
        Tightens(s[1..], tok);
        var tail := SubAround(s[1..], tok);
        assert r == [s[0]] + tail;
        ContainsCons(s[0], tail, [' ', c]);
        ContainsCons(s[0], tail, [c, ' ']);
        StartsWithPair(r, ' ', c);
        StartsWithPair(r, c, ' ');
        if IsSpace(s[0]) {
          AfterSpace(s);
          assert s[1..][..1] == [s[1]];
        } else {
          assert s[0..][..1] == [s[0]];
        }
      }
    }
  }

  /** A two-character substitution with distinct characters leaves no space in front of its
      literal. */
  lemma {:induction false} NoSpaceBefore(s: string, tok: string)
    requires IsToken(tok) && |tok| == 2 && tok[0] != tok[1] && SpacedSuffix(s)
    ensures !Contains(SubAround(s, tok), [' '] + tok)
    decreases |s|
  {
    if s != [] {
      var p := [' '] + tok;
      assert p == [' ', tok[0], tok[1]];
      var r := SubAround(s, tok);
      var n := MatchLen(s, tok);
      if n > 0 {
        AfterMatch(s, tok, n);
        NoSpaceBefore(s[n..], tok);
        var tail := SubAround(s[n..], tok);
        assert r == tok + tail;
        assert ' ' !in tok;
        ContainsSkipPrefix(tok, tail, p);
      } else {
        SpacedSuffixDrop(s, 1);
        NoSpaceBefore(s[1..], tok);
        var tail := SubAround(s[1..], tok);
        assert r == [s[0]] + tail;
        ContainsCons(s[0], tail, p);
        StartsWithTriple(r, ' ', tok[0], tok[1]);
        if s[0] == ' ' {
          AfterSpace(s);
          SecondAfterSpace(s, tok);
        }
      }
    }
  }

  /** The step of `NoSpaceBefore` where a space is not followed by a match: what the substitution
      makes of the rest does not begin with the literal. */
  lemma SecondAfterSpace(s: string, tok: string)
    requires IsToken(tok) && |tok| == 2 && tok[0] != tok[1] && SpacedSuffix(s)
    requires |s| >= 2 && s[0] == ' ' && !IsSpace(s[1]) && LeadingWs(s) == 1
    requires !StartsWith(s[1..], tok)
    ensures var tail := SubAround(s[1..], tok); !(|tail| >= 2 && tail[0] == tok[0] && tail[1] == tok[1])
  {
    var u := s[1..];
    assert LeadingWs(u) == 0;
    assert u[0..] == u;
    assert MatchLen(u, tok) == 0;
    var tail := SubAround(u, tok);
    assert tail == [u[0]] + SubAround(u[1..], tok);
    StartsWithPair(u, tok[0], tok[1]);
    assert tok == [tok[0], tok[1]];
    assert |u| >= 2 ==> u[1] in s;
  }

  /** A later substitution whose literal starts with neither character of `w` keeps
      "space, then `w`" absent. */
  lemma {:induction false} KeepsNoSpaceBefore(s: string, tok: string, w: string)
    requires IsToken(tok) && SpacedSuffix(s)
    requires |w| == 2 && NoSpace(w) && tok[0] != w[0] && tok[0] != w[1]
    requires !Contains(s, [' '] + w)
    ensures !Contains(SubAround(s, tok), [' '] + w)
    decreases |s|
  {
    if s != [] {
      var p := [' '] + w;
      assert p == [' ', w[0], w[1]];
      var r := SubAround(s, tok);
      var n := MatchLen(s, tok);
      if n > 0 {
        AfterMatch(s, tok, n);
        MissesInSuffix(s, n, p);
        KeepsNoSpaceBefore(s[n..], tok, w);
        var tail := SubAround(s[n..], tok);
        assert r == tok + tail;
        assert ' ' !in tok;
        ContainsSkipPrefix(tok, tail, p);
      } else {
        SpacedSuffixDrop(s, 1);
        MissesInSuffix(s, 1, p);
        KeepsNoSpaceBefore(s[1..], tok, w);
        var tail := SubAround(s[1..], tok);
        assert r == [s[0]] + tail;
        ContainsCons(s[0], tail, p);
        StartsWithTriple(r, ' ', w[0], w[1]);
        StartsWithTriple(s, ' ', w[0], w[1]);
        if s[0] == ' ' {
          AfterSpace(s);
          SecondAfterSpaceKeeps(s, tok, w);
        }
      }
    }
  }

  /** The step of `KeepsNoSpaceBefore` after a space. */
  lemma SecondAfterSpaceKeeps(s: string, tok: string, w: string)
    requires IsToken(tok) && SpacedSuffix(s)
    requires |w| == 2 && NoSpace(w) && tok[0] != w[0] && tok[0] != w[1]
    requires |s| >= 2 && s[0] == ' ' && !IsSpace(s[1]) && LeadingWs(s) == 1
    requires !(|s| >= 3 && s[1] == w[0] && s[2] == w[1])
    ensures var tail := SubAround(s[1..], tok); !(|tail| >= 2 && tail[0] == w[0] && tail[1] == w[1])
  {
    var u := s[1..];
    assert LeadingWs(u) == 0;
    assert u[0..] == u;
    var tail := SubAround(u, tok);
    assert u[0] == w[0] ==> !StartsWith(u, tok) by {
      assert StartsWith(u, tok) ==> u[..|tok|][0] == u[0];
    }
    assert u[0] == w[0] ==> tail == [u[0]] + SubAround(u[1..], tok);
    assert w[1] in w;
    assert |u| >= 2 ==> u[1] in s;
  }

  /** A substitution keeps `c` tight when it was tight before. */
  lemma KeepsTight(s: string, tok: string, c: char)
    requires IsToken(tok) && SpacedSuffix(s)
    requires !IsSpace(c) && Tight(s, c)
    ensures Tight(SubAround(s, tok), c)
  {
    KeepsPairAbsent(s, tok, ' ', c);
    KeepsPairAbsent(s, tok, c, ' ');
  }

  /** On text whose only whitespace is plain spaces, with no space next to any occurrence of
      `tok`, the substitution changes nothing. */
  lemma {:induction false} Unchanged(s: string, tok: string)
    requires IsToken(tok) && PlainSpaces(s)
    requires !Contains(s, [' '] + tok) && !Contains(s, tok + [' '])
    ensures SubAround(s, tok) == s
    decreases |s|
  {
    if s != [] {
      if MatchLen(s, tok) > 0 {
        UnchangedAtMatch(s, tok);
        Unchanged(s[|tok|..], tok);
      } else {
        UnchangedAtOther(s, tok);
        Unchanged(s[1..], tok);
      }
    }
  }

  /** The match step of `Unchanged`: the bare literal is replaced by itself. */
  lemma UnchangedAtMatch(s: string, tok: string)
    requires IsToken(tok) && PlainSpaces(s)
    requires !Contains(s, [' '] + tok) && !Contains(s, tok + [' '])
    requires s != [] && MatchLen(s, tok) > 0
    ensures |tok| <= |s| && s == tok + s[|tok|..]
    ensures SubAround(s, tok) == tok + SubAround(s[|tok|..], tok)
    ensures PlainSpaces(s[|tok|..])
    ensures !Contains(s[|tok|..], [' '] + tok) && !Contains(s[|tok|..], tok + [' '])
  {
    BareMatch(s, tok);
    var rest := s[|tok|..];
    assert forall c :: c in rest ==> c in s;
    MissesInSuffix(s, |tok|, [' '] + tok);
    MissesInSuffix(s, |tok|, tok + [' ']);
    assert s == tok + rest;
  }

  /** The other step of `Unchanged`: a character that starts no match is copied. */
  lemma UnchangedAtOther(s: string, tok: string)
    requires IsToken(tok) && PlainSpaces(s)
    requires !Contains(s, [' '] + tok) && !Contains(s, tok + [' '])
    requires s != [] && MatchLen(s, tok) == 0
    ensures s == [s[0]] + s[1..]
    ensures SubAround(s, tok) == [s[0]] + SubAround(s[1..], tok)
    ensures PlainSpaces(s[1..])
    ensures !Contains(s[1..], [' '] + tok) && !Contains(s[1..], tok + [' '])
  {
    assert forall c :: c in s[1..] ==> c in s;
    MissesInSuffix(s, 1, [' '] + tok);
    MissesInSuffix(s, 1, tok + [' ']);
    assert s == [s[0]] + s[1..];
  }

  /** With no space next to the literal, a match is the bare literal. */
  lemma BareMatch(s: string, tok: string)
    requires IsToken(tok) && PlainSpaces(s)
    requires !Contains(s, [' '] + tok) && !Contains(s, tok + [' '])
    requires MatchLen(s, tok) > 0
    ensures MatchLen(s, tok) == |tok| && StartsWith(s, tok)
  {
    SpaceBeforeMatch(s, tok);
    SpaceAfterLiteral(s, tok);
    assert s[0..] == s;
  }

  /** In plain-spaced text, whitespace in front of a literal means a space right before it. */
  lemma SpaceBeforeMatch(s: string, tok: string)
    requires PlainSpaces(s)
    ensures LeadingWs(s) > 0 && StartsWith(s[LeadingWs(s)..], tok) ==> Contains(s, [' '] + tok)
  {
    var k := LeadingWs(s);
    if k > 0 && StartsWith(s[k..], tok) {
      assert s[..k][k - 1] in s[..k];
      assert s[k - 1] in s;
      assert s[k - 1..][..|tok| + 1] == [' '] + tok by {
        assert s[k..][..|tok|] == tok;
      }
      ContainsInSuffix(s, k - 1, [' '] + tok);
    }
  }

  /** In plain-spaced text, whitespace right after a leading literal means a space after it. */
  lemma SpaceAfterLiteral(s: string, tok: string)
    requires PlainSpaces(s)
    ensures StartsWith(s, tok) && LeadingWs(s[|tok|..]) > 0 ==> Contains(s, tok + [' '])
  {
    if StartsWith(s, tok) && LeadingWs(s[|tok|..]) > 0 {
      var rest := s[|tok|..];
      assert rest[0] in s;
      assert s[..|tok| + 1] == tok + [' '];
    }
  }

  // ----- What one substitution keeps -----

  /** In front of whitespace, the literal starts a string exactly when it starts the part before
      the whitespace. */
  lemma StartsWithBeforeSpace(t: string, rest: string, tok: string)
    requires IsToken(tok) && rest != [] && IsSpace(rest[0])
    ensures StartsWith(t + rest, tok) <==> StartsWith(t, tok)
  {
    if |tok| <= |t| {
      assert (t + rest)[..|tok|] == t[..|tok|];
    } else if |tok| <= |t + rest| {
      assert (t + rest)[..|tok|][|t|] == rest[0];
      assert tok[|t|] in tok;
    }
  }

  /** A match that starts in `a`, whose last character is not whitespace, ends inside `a` unless
      the literal ends `a`; whitespace after `a` does not change it. */
  lemma MatchLenBeforeSpace(a: string, rest: string, tok: string)
    requires IsToken(tok) && a != [] && !IsSpace(a[|a| - 1]) && !EndsWith(a, tok)
    requires rest != [] && IsSpace(rest[0])
    ensures MatchLen(a + rest, tok) == MatchLen(a, tok) < |a|
  {
    MatchPartsBeforeSpace(a, rest, tok);
    SameMatchLen(a + rest, a, tok);
    MatchLenInside(a, rest, tok);
  }

  /** Two strings with the same leading whitespace, the same literal after it and the same
      whitespace after that have the same match. */
  lemma SameMatchLen(s: string, t: string, tok: string)
    requires IsToken(tok) && LeadingWs(s) == LeadingWs(t)
    requires StartsWith(s[LeadingWs(s)..], tok) <==> StartsWith(t[LeadingWs(t)..], tok)
    requires StartsWith(t[LeadingWs(t)..], tok) ==>
      LeadingWs(s[LeadingWs(s) + |tok|..]) == LeadingWs(t[LeadingWs(t) + |tok|..])
    ensures MatchLen(s, tok) == MatchLen(t, tok)
  {
    MatchLenOf(s, tok);
    MatchLenOf(t, tok);
  }

  /** `MatchLen` from its pieces. */
  lemma MatchLenOf(s: string, tok: string)
    requires IsToken(tok)
    ensures var k := LeadingWs(s);
      MatchLen(s, tok) == if StartsWith(s[k..], tok) then k + |tok| + LeadingWs(s[k + |tok|..]) else 0
  {
  }

  lemma MatchLenInside(a: string, rest: string, tok: string)
    requires IsToken(tok) && a != [] && !IsSpace(a[|a| - 1]) && !EndsWith(a, tok)
    requires rest != [] && IsSpace(rest[0])
    ensures MatchLen(a, tok) < |a|
  {
    MatchPartsBeforeSpace(a, rest, tok);
  }

  /** The pieces `MatchLen` is made of, for `a` and for `a + rest`. */
  lemma MatchPartsBeforeSpace(a: string, rest: string, tok: string)
    requires IsToken(tok) && a != [] && !IsSpace(a[|a| - 1]) && !EndsWith(a, tok)
    requires rest != [] && IsSpace(rest[0])
    ensures var k := LeadingWs(a);
      && LeadingWs(a + rest) == k < |a|
      && (StartsWith((a + rest)[k..], tok) <==> StartsWith(a[k..], tok))
      && (StartsWith(a[k..], tok) ==>
            && k + |tok| < |a|
            && LeadingWs((a + rest)[k + |tok|..]) == LeadingWs(a[k + |tok|..]) < |a| - k - |tok|)
  {
    LeadingWsAppend(a, rest);
    var k := LeadingWs(a);
    assert (a + rest)[k..] == a[k..] + rest;
    StartsWithBeforeSpace(a[k..], rest, tok);
    if StartsWith(a[k..], tok) {
      TokenInside(a, k, tok);
      TailBeforeSpace(a, rest, k + |tok|);
    }
  }

  /** An occurrence of the literal in a string that does not end with it ends before the end. */
  lemma TokenInside(a: string, k: nat, tok: string)
    requires k <= |a| && StartsWith(a[k..], tok) && !EndsWith(a, tok)
    ensures k + |tok| < |a|
  {
    assert a[k..k + |tok|] == tok;
  }

  lemma TailBeforeSpace(a: string, rest: string, j: nat)
    requires j < |a| && !IsSpace(a[|a| - 1])
    ensures LeadingWs((a + rest)[j..]) == LeadingWs(a[j..]) < |a| - j
  {
    assert (a + rest)[j..] == a[j..] + rest;
    LeadingWsAppend(a[j..], rest);
  }

  /** A space followed by text that does not start with the literal is kept. */
  lemma GapAtSpace(b: string, tok: string)
    requires IsToken(tok) && b != [] && !IsSpace(b[0]) && !StartsWith(b, tok)
    ensures SubAround([' '] + b, tok) == [' '] + SubAround(b, tok)
  {
    var s := [' '] + b;
    assert s[1..] == b;
    assert LeadingWs(s) == 1;
    assert MatchLen(s, tok) == 0;
  }

  /** One step of the substitution at a match. */
  lemma SubAroundAtMatch(s: string, tok: string)
    requires IsToken(tok) && s != [] && MatchLen(s, tok) > 0
    ensures SubAround(s, tok) == tok + SubAround(s[MatchLen(s, tok)..], tok)
  {
  }

  /** One step of the substitution at a character that starts no match. */
  lemma SubAroundAtOther(s: string, tok: string)
    requires IsToken(tok) && s != [] && MatchLen(s, tok) == 0
    ensures SubAround(s, tok) == [s[0]] + SubAround(s[1..], tok)
  {
  }

  /** The first step of the substitution: the literal for a match of length `n`, or the first
      character when there is no match (`n` is then 1). */
  lemma FirstStep(s: string, tok: string, n: nat)
    requires IsToken(tok) && s != []
    requires n == MatchLen(s, tok) > 0 || (n == 1 && MatchLen(s, tok) == 0)
    ensures SubAround(s, tok) == (if MatchLen(s, tok) > 0 then tok else [s[0]]) + SubAround(s[n..], tok)
  {
    if MatchLen(s, tok) > 0 {
      SubAroundAtMatch(s, tok);
    } else {
      SubAroundAtOther(s, tok);
    }
  }

  /** The substitution on `a + rest` after its first step, when that step stays inside `a`. */
  lemma StepInside(a: string, rest: string, tok: string, n: nat)
    requires IsToken(tok) && 0 < n <= |a|
    requires n == MatchLen(a + rest, tok) > 0 || (n == 1 && MatchLen(a + rest, tok) == 0)
    ensures SubAround(a + rest, tok) ==
      (if MatchLen(a + rest, tok) > 0 then tok else [a[0]]) + SubAround(a[n..] + rest, tok)
  {
    assert (a + rest)[n..] == a[n..] + rest;
    FirstStep(a + rest, tok, n);
  }

  /** The substitution keeps a single space between `a` and `b` when no whitespace touches it,
      the literal does not end `a` and does not start `b`: each side is rewritten on its own. */
  lemma {:induction false} SubAroundGap(a: string, b: string, tok: string)
    requires IsToken(tok)
    requires a == [] || (!IsSpace(a[|a| - 1]) && !EndsWith(a, tok))
    requires b != [] && !IsSpace(b[0]) && !StartsWith(b, tok)
    ensures SubAround(a + ([' '] + b), tok) == SubAround(a, tok) + ([' '] + SubAround(b, tok))
    decreases |a|
  {
    var rest := [' '] + b;
    if a == [] {
      GapAtSpace(b, tok);
      assert a + rest == rest;
    } else {
      MatchLenBeforeSpace(a, rest, tok);
      var n := if MatchLen(a, tok) > 0 then MatchLen(a, tok) else 1;
      var head := if MatchLen(a, tok) > 0 then tok else [a[0]];
      StepInside(a, rest, tok, n);
      FirstStep(a, tok, n);
      NotEndsWithSuffix(a, n, tok);
      assert n < |a| ==> a[n..][|a[n..]| - 1] == a[|a| - 1];
      SubAroundGap(a[n..], b, tok);
      GapCompose(head, SubAround(a[n..], tok), SubAround(b, tok));
    }
  }

  lemma GapCompose(head: string, l: string, m: string)
    ensures head + (l + ([' '] + m)) == (head + l) + ([' '] + m)
  {
  }

  /** A match that reaches the end of a string ending in a non-whitespace character ends with the
      literal itself. */
  lemma MatchToEnd(a: string, tok: string)
    requires IsToken(tok) && a != [] && !IsSpace(a[|a| - 1])
    requires MatchLen(a, tok) == |a|
    ensures a[|a| - 1] == tok[|tok| - 1]
  {
    var k := LeadingWs(a);
    var j := k + |tok|;
    assert a[k..][..|tok|] == tok;
    assert a[j - 1] == tok[|tok| - 1];
  }

  /** The substitution keeps the last character when it is not whitespace. */
  lemma {:induction false} SubAroundLast(a: string, tok: string)
    requires IsToken(tok) && a != [] && !IsSpace(a[|a| - 1])
    ensures SubAround(a, tok) != []
    ensures SubAround(a, tok)[|SubAround(a, tok)| - 1] == a[|a| - 1]
    decreases |a|
  {
    var n := if MatchLen(a, tok) > 0 then MatchLen(a, tok) else 1;
    var head := if MatchLen(a, tok) > 0 then tok else [a[0]];
    FirstStep(a, tok, n);
    if n == |a| {
      if MatchLen(a, tok) > 0 {
        MatchToEnd(a, tok);
      }
      assert SubAround(a, tok) == head + SubAround([], tok);
    } else {
      assert a[n..][|a[n..]| - 1] == a[|a| - 1];
      SubAroundLast(a[n..], tok);
    }
  }

  // ----- Only whitespace is deleted -----

  /** Whitespace, then the literal, then whitespace: dropping the whitespace leaves the
      literal. */
  lemma {:induction false} SpacedDrops(m: string, front: string, tok: string, back: string)
    requires m == front + (tok + back) && AllSpace(front) && AllSpace(back)
    ensures DropsWs(m, tok)
  {
    DropsAll(front);
    DropsAll(back);
    DropsSelf(tok);
    DropsAppend(tok, tok, back, []);
    assert tok + [] == tok;
    DropsAppend(front, [], tok + back, tok);
    assert [] + tok == tok;
  }

  lemma {:induction false} SliceThree(s: string, k: nat, j: nat, n: nat)
    requires k <= j <= n <= |s|
    ensures s[..n] == s[..k] + (s[k..j] + s[j..n])
  {
  }

  /** The pieces of a match, as `SpacedDrops` wants them. */
  lemma {:induction false} MatchPieces(s: string, tok: string, k: nat, n: nat)
    requires k == LeadingWs(s) && StartsWith(s[k..], tok)
    requires n == k + |tok| + LeadingWs(s[k + |tok|..])
    ensures DropsWs(s[..n], tok)
  {
    var j := k + |tok|;
    var front, back := s[..k], s[j..][..n - j];
    assert s[k..j] == s[k..][..|tok|] == tok;
    assert s[j..n] == back;
    SliceThree(s, k, j, n);
    SpacedDrops(s[..n], front, tok, back);
  }

  /** A match is whitespace, the literal and whitespace, so replacing it by the literal only
      deletes whitespace. */
  lemma MatchDrops(s: string, tok: string)
    requires IsToken(tok) && MatchLen(s, tok) > 0
    ensures DropsWs(s[..MatchLen(s, tok)], tok)
  {
    MatchLenOf(s, tok);
    MatchPieces(s, tok, LeadingWs(s), MatchLen(s, tok));
  }

  /** Deletions in `s[..n]` and in `s[n..]` make a deletion in `s`. */
  lemma DropsSplit(s: string, n: nat, head: string, rest: string, r: string)
    requires n <= |s| && DropsWs(s[..n], head) && DropsWs(s[n..], rest) && r == head + rest
    ensures DropsWs(s, r)
  {
    assert s == s[..n] + s[n..];
    DropsAppend(s[..n], head, s[n..], rest);
  }

  /** `re.sub(r'\s*TOK\s*', TOK, s)` only deletes whitespace: every other character of `s` stays,
      in order, and nothing is inserted. */
  lemma {:induction false} SubAroundDrops(s: string, tok: string)
    requires IsToken(tok)
    ensures DropsWs(s, SubAround(s, tok))
    decreases |s|
  {
    if s != [] {
      var n := MatchLen(s, tok);
      if n > 0 {
        SubAroundAtMatch(s, tok);
        MatchDrops(s, tok);
        SubAroundDrops(s[n..], tok);
        DropsSplit(s, n, tok, SubAround(s[n..], tok), SubAround(s, tok));
      } else {
        SubAroundAtOther(s, tok);
        SubAroundDrops(s[1..], tok);
        DropsSelf(s[..1]);
        assert s[..1] == [s[0]];
        DropsSplit(s, 1, [s[0]], SubAround(s[1..], tok), SubAround(s, tok));
      }
    }
  }
}

=== FILE: results.dfy ===
/** The outcome of an operation that Python would end with an exception, and optional values. */
module Results {

  datatype Option<+T> = None | Some(value: T)

  datatype Result<+T, +E> = Ok(value: T) | Err(error: E) {

    predicate IsFailure() {
      Err?
    }

    function PropagateFailure<U>(): Result<U, E>
      requires Err?
    {
      Err(error)
    }

    function Extract(): T
      requires Ok?
    {
      value
    }
  }
}

=== FILE: schema_example.dfy ===
/** The two-table schema of test_picard.py and the text `flatten_schema` makes of it. */
module SchemaExample {
  import opened Strings
  import opened Results
  import opened SchemaUtils

  /** Tables `users` and `orders`; the global `*` column, then `id` and `name` of `users`, then
      `id`, `user_id` and `total` of `orders`. */
  function MockSchema(): Schema {
    Schema("test_db", ["users", "orders"],
           [Column(-1, "*"), Column(0, "id"), Column(0, "name"),
            Column(1, "id"), Column(1, "user_id"), Column(1, "total")])
  }

  /** `flatten_schema` of the mock schema is the schema text the test feeds the model. */
  lemma MockSchemaText()
    ensures Flatten(MockSchema()) == Ok("Tables: users(id, name), orders(id, user_id, total)")
  {
    var s := MockSchema();
    MockNoBadColumn(s);
    MockKeys(s.tableNames);
    MockUsers(s);
    MockOrders(s);
    TwoParts(s, Part("users", ["id", "name"]), Part("orders", ["id", "user_id", "total"]));
    MockText(Part("users", ["id", "name"]), Part("orders", ["id", "user_id", "total"]));
  }

  // The lemmas below split the computation on the literal schema into small steps: filing the
  // six columns one at a time through accumulators (`ColumnsStep`, `SixColumns`), and building
  // the text from two- and three-element joins (`JoinTwo`, `JoinThree`). Each step stays small
  // enough for the verifier; none of them states anything beyond the worked example.

  lemma MockNoBadColumn(s: Schema)
    requires s == MockSchema()
    ensures FirstBad(s.tableNames, s.columns).None?
  {
    assert forall q :: 0 <= q < |s.columns| ==> !Bad(s.tableNames, s.columns[q]);
  }

  lemma MockKeys(names: seq<string>)
    requires names == ["users", "orders"]
    ensures Distinct(names) == ["users", "orders"]
  {
    DistinctTwo("users", "orders");
  }

  /** Two different names are two keys. */
  lemma DistinctTwo(a: string, b: string)
    requires a != b
    ensures Distinct([a, b]) == [a, b]
  {
    assert [a, b][..1] == [a];
    assert [a][..0] == [];
    assert Distinct([a]) == [a];
  }

  /** The columns filed under `users`. */
  lemma MockUsers(s: Schema)
    requires s == MockSchema()
    ensures ColumnsOf(s.tableNames, s.columns, "users") == ["id", "name"]
  {
    MockOwners(s);
    SixColumns(s.tableNames, s.columns, "users", [], ["id"], ["name"], [], [], []);
    assert [] + [] + ["id"] + ["name"] + [] + [] + [] == ["id", "name"];
  }

  /** The columns filed under `orders`. */
  lemma MockOrders(s: Schema)
    requires s == MockSchema()
    ensures ColumnsOf(s.tableNames, s.columns, "orders") == ["id", "user_id", "total"]
  {
    MockOwners(s);
    SixColumns(s.tableNames, s.columns, "orders", [], [], [], ["id"], ["user_id"], ["total"]);
    assert [] + [] + [] + [] + ["id"] + ["user_id"] + ["total"] == ["id", "user_id", "total"];
  }

  /** What one column contributes to table `t`. */
  function Single(names: seq<string>, c: Column, t: string): seq<string> {
    if Owner(names, c) == Some(t) then [c.name] else []
  }

  /** Filing the column at `i` after the ones before it. */
  lemma ColumnsStep(names: seq<string>, cols: seq<Column>, i: nat, t: string, acc: seq<string>,
                    add: seq<string>)
    requires i < |cols| && ColumnsOf(names, cols[..i], t) == acc && add == Single(names, cols[i], t)
    ensures ColumnsOf(names, cols[..i + 1], t) == acc + add
  {
    ColumnsOfSnoc(names, cols, i, t);
  }

  /** Filing six columns, one at a time. */
  lemma SixColumns(names: seq<string>, cols: seq<Column>, t: string,
                   a0: seq<string>, a1: seq<string>, a2: seq<string>,
                   a3: seq<string>, a4: seq<string>, a5: seq<string>)
    requires |cols| == 6
    requires a0 == Single(names, cols[0], t) && a1 == Single(names, cols[1], t)
    requires a2 == Single(names, cols[2], t) && a3 == Single(names, cols[3], t)
    requires a4 == Single(names, cols[4], t) && a5 == Single(names, cols[5], t)
    ensures ColumnsOf(names, cols, t) == [] + a0 + a1 + a2 + a3 + a4 + a5
  {
    assert cols[..0] == [];
    ColumnsStep(names, cols, 0, t, [], a0);
    ColumnsStep(names, cols, 1, t, [] + a0, a1);
    ColumnsStep(names, cols, 2, t, [] + a0 + a1, a2);
    ColumnsStep(names, cols, 3, t, [] + a0 + a1 + a2, a3);
    ColumnsStep(names, cols, 4, t, [] + a0 + a1 + a2 + a3, a4);
    ColumnsStep(names, cols, 5, t, [] + a0 + a1 + a2 + a3 + a4, a5);
    assert cols[..6] == cols;
  }

  /** Where each column of the mock schema is filed. */
  lemma MockOwners(s: Schema)
    requires s == MockSchema()
    ensures Owner(s.tableNames, s.columns[0]) == None
    ensures Owner(s.tableNames, s.columns[1]) == Some("users")
    ensures Owner(s.tableNames, s.columns[2]) == Some("users")
    ensures Owner(s.tableNames, s.columns[3]) == Some("orders")
    ensures Owner(s.tableNames, s.columns[4]) == Some("orders")
    ensures Owner(s.tableNames, s.columns[5]) == Some("orders")
  {
  }

  /** With two distinct tables the parts are those two. */
  lemma TwoParts(s: Schema, p1: string, p2: string)
    requires Distinct(s.tableNames) == ["users", "orders"]
    requires p1 == Part("users", ColumnsOf(s.tableNames, s.columns, "users"))
    requires p2 == Part("orders", ColumnsOf(s.tableNames, s.columns, "orders"))
    ensures Parts(s) == [p1, p2]
  {
  }

  lemma MockText(p1: string, p2: string)
    requires p1 == Part("users", ["id", "name"])
    requires p2 == Part("orders", ["id", "user_id", "total"])
    ensures Render([p1, p2]) == "Tables: users(id, name), orders(id, user_id, total)"
  {
    UsersPart(p1);
    OrdersPart(p2);
    JoinTwo(", ", p1, p2);
    TwoPartsText(p1, p2);
  }

  lemma TwoPartsText(p1: string, p2: string)
    requires p1 == "users(id, name)" && p2 == "orders(id, user_id, total)"
    ensures "Tables: " + (p1 + ", " + p2) == "Tables: users(id, name), orders(id, user_id, total)"
  {
  }

  lemma UsersPart(p: string)
    requires p == Part("users", ["id", "name"])
    ensures p == "users(id, name)"
  {
    JoinTwo(", ", "id", "name");
  }

  lemma OrdersPart(p: string)
    requires p == Part("orders", ["id", "user_id", "total"])
    ensures p == "orders(id, user_id, total)"
  {
    JoinThree(", ", "id", "user_id", "total");
  }

  /** `sep.join([a, b])`. */
  lemma JoinTwo(sep: string, a: string, b: string)
    ensures Join(sep, [a, b]) == a + sep + b
  {
    assert [a, b][1..] == [b];
  }

  /** `sep.join([a, b, c])`. */
  lemma JoinThree(sep: string, a: string, b: string, c: string)
    ensures Join(sep, [a, b, c]) == a + sep + (b + sep + c)
  {
    assert [a, b, c][1..] == [b, c];
    JoinTwo(sep, b, c);
  }
}

=== FILE: schema_utils.dfy ===
/** preprocess/schema_utils.py: `flatten_schema`, which serialises a database schema as
    `Tables: t1(c1, c2), t2(...)`, and the id map that `load_tables` builds. */
module SchemaUtils {
  import opened Strings
  import opened Results

  /** An entry of `column_names_original`: the index of the owning table and the column name. */
  datatype Column = Column(tableId: int, name: string)

  /** The fields of a tables.json record that the code reads. */
  datatype Schema = Schema(dbId: string, tableNames: seq<string>, columns: seq<Column>)

  /** `table_names[table_id]` raised IndexError for the column at `position`. */
  datatype SchemaError = TableIndexOutOfRange(position: nat, tableId: int)

  /** One entry of the `table_columns` dict: a table and the columns collected for it so far. */
  datatype Group = Group(table: string, columns: seq<string>)

  // ----- Python list indexing -----

  /** The position that `xs[i]` reads in a list of length `n`: negative indices count from the
      end, and `None` is the IndexError. */
  function PyIndex(n: nat, i: int): (r: Option<nat>)
    ensures r.Some? <==> 0 <= i + n && i < n
    ensures r.Some? ==> r.value < n && (r.value == i || r.value == i + n)
  {
    if 0 <= i < n then Some(i) else if 0 <= i + n && i < 0 then Some(i + n) else None
  }

  // ----- Which columns go where -----

  /** The loop's `continue`: a global column such as `*`. */
  predicate Skipped(c: Column) {
    c.tableId == -1 || c.name == "*"
  }

  /** A column that reaches the lookup `table_names[table_id]` and makes it fail. */
  predicate Bad(names: seq<string>, c: Column) {
    !Skipped(c) && PyIndex(|names|, c.tableId).None?
  }

  /** The table a column is filed under, if it is not skipped and its lookup succeeds. */
  function Owner(names: seq<string>, c: Column): (r: Option<string>)
    ensures r.Some? <==> !Skipped(c) && !Bad(names, c)
    ensures r.Some? ==> r.value in names
  {
    if Skipped(c) then None
    else match PyIndex(|names|, c.tableId)
      case None => None
      case Some(k) => Some(names[k])
  }

  /** The position of the first column whose lookup fails. */
  function FirstBad(names: seq<string>, cols: seq<Column>): (r: Option<nat>)
    ensures r.None? <==> forall q :: 0 <= q < |cols| ==> !Bad(names, cols[q])
    ensures r.Some? ==> r.value < |cols| && Bad(names, cols[r.value])
    ensures r.Some? ==> forall q :: 0 <= q < r.value ==> !Bad(names, cols[q])
    decreases |cols|
  {
    if cols == [] then None
    else
      var prefix := cols[..|cols| - 1];
      assert forall q :: 0 <= q < |prefix| ==> prefix[q] == cols[q];
      var p := FirstBad(names, prefix);
      if p.Some? then p
      else if Bad(names, cols[|cols| - 1]) then Some(|cols| - 1)
      else None
  }

  /** The names of the columns filed under table `t`, in the order of `cols`. */
  function ColumnsOf(names: seq<string>, cols: seq<Column>, t: string): (r: seq<string>)
    ensures "*" !in r
    decreases |cols|
  {
    if cols == [] then []
    else
      var last := cols[|cols| - 1];
      ColumnsOf(names, cols[..|cols| - 1], t) + (if Owner(names, last) == Some(t) then [last.name] else [])
  }

  /** The keys of a dict built from `xs`, in insertion order: each element at its first
      occurrence. */
  function Distinct(xs: seq<string>): (ks: seq<string>)
    ensures forall x :: x in ks <==> x in xs
    ensures forall i, j :: 0 <= i < j < |ks| ==> ks[i] != ks[j]
    decreases |xs|
  {
    if xs == [] then []
    else
      var d := Distinct(xs[..|xs| - 1]);
      assert forall x :: x in xs <==> x in xs[..|xs| - 1] || x == xs[|xs| - 1];
      if xs[|xs| - 1] in d then d else d + [xs[|xs| - 1]]
  }

  // ----- The text -----

  /** `f"{table}({', '.join(columns)})"`. */
  function Part(t: string, cols: seq<string>): string {
    t + "(" + Join(", ", cols) + ")"
  }

  /** `"Tables: " + ", ".join(parts)`. */
  function Render(parts: seq<string>): string {
    "Tables: " + Join(", ", parts)
  }

  /** One part per distinct table, in first-occurrence order, with the table's columns. */
  function Parts(s: Schema): (parts: seq<string>)
    ensures |parts| == |Distinct(s.tableNames)|
  {
    var ks := Distinct(s.tableNames);
    seq(|ks|, k requires 0 <= k < |ks| => Part(ks[k], ColumnsOf(s.tableNames, s.columns, ks[k])))
  }

  /** What `flatten_schema` returns or raises, stated without its loops. */
  function Flatten(s: Schema): (r: Result<string, SchemaError>)
    ensures r.Ok? ==> StartsWith(r.value, "Tables: ")
    ensures r.Err? <==> exists q :: 0 <= q < |s.columns| && Bad(s.tableNames, s.columns[q])
    ensures r.Err? ==>
      && r.error.position < |s.columns|
      && Bad(s.tableNames, s.columns[r.error.position])
      && r.error.tableId == s.columns[r.error.position].tableId
      && forall q :: 0 <= q < r.error.position ==> !Bad(s.tableNames, s.columns[q])
  {
    var bad := FirstBad(s.tableNames, s.columns);
    if bad.Some? then Err(TableIndexOutOfRange(bad.value, s.columns[bad.value].tableId))
    else
      assert Render(Parts(s))[..|"Tables: "|] == "Tables: ";
      Ok(Render(Parts(s)))
  }

  // ----- flatten_schema -----

  function Keys(groups: seq<Group>): (ks: seq<string>)
    ensures |ks| == |groups|
  {
    seq(|groups|, k requires 0 <= k < |groups| => groups[k].table)
  }

  /** `table_columns[t].append(n)`. */
  function AppendTo(groups: seq<Group>, t: string, n: string): (r: seq<Group>)
    ensures |r| == |groups|
  {
    seq(|groups|, k requires 0 <= k < |groups| =>
      if groups[k].table == t then Group(t, groups[k].columns + [n]) else groups[k])
  }

  /** The groups after the columns `cols` have been filed. Its contract only serves as a loop
      invariant of `FlattenSchema`; `FiledOnce` and `FiledColumns` state what the groups hold. */
  function Filed(names: seq<string>, cols: seq<Column>): (groups: seq<Group>)
    ensures Keys(groups) == Distinct(names)
  {
    var ks := Distinct(names);
    seq(|ks|, k requires 0 <= k < |ks| => Group(ks[k], ColumnsOf(names, cols, ks[k])))
  }

  /** `flatten_schema(db_schema)`, loop by loop. */
  method FlattenSchema(s: Schema) returns (r: Result<string, SchemaError>)
    ensures r == Flatten(s)
  {
    var names := s.tableNames;
    var cols := s.columns;
    var groups: seq<Group> := [];
    var i := 0;
    while i < |names|
      invariant 0 <= i <= |names|
      invariant groups == Filed(names[..i], [])
    {
      AddKeyStep(names, i);
      if names[i] !in Keys(groups) {
        groups := groups + [Group(names[i], [])];
      }
      i := i + 1;
    }
    assert names[..i] == names;
    assert cols[..0] == [];
    i := 0;
    while i < |cols|
      invariant 0 <= i <= |cols|
      invariant FirstBad(names, cols[..i]).None?
      invariant groups == Filed(names, cols[..i])
    {
      var c := cols[i];
      if c.tableId == -1 || c.name == "*" {
        SkipStep(names, cols, i);
      } else {
        var index := PyIndex(|names|, c.tableId);
        if index.None? {
          FirstBadPrefix(names, cols, i);
          return Err(TableIndexOutOfRange(i, c.tableId));
        }
        var tableName := names[index.value];
        FileStep(names, cols, i, index.value);
        groups := AppendTo(groups, tableName, c.name);
      }
      i := i + 1;
    }
    assert cols[..i] == cols;
    var parts: seq<string> := [];
    var k := 0;
    while k < |groups|
      invariant 0 <= k <= |groups|
      invariant parts == Parts(s)[..k]
    {
      PartStep(s, k);
      parts := parts + [Part(groups[k].table, groups[k].columns)];
      k := k + 1;
    }
    assert parts == Parts(s);
    r := Ok("Tables: " + Join(", ", parts));
  }

  /** The dict comprehension adds a key for a table name only when it is new. */
  lemma AddKeyStep(names: seq<string>, i: nat)
    requires i < |names|
    ensures Filed(names[..i + 1], [])
         == if names[i] in Keys(Filed(names[..i], [])) then Filed(names[..i], [])
            else Filed(names[..i], []) + [Group(names[i], [])]
  {
    assert names[..i + 1][..i] == names[..i];
  }

  /** Filing one more column adds it, at the end, to its owner's columns only. */
  lemma ColumnsOfSnoc(names: seq<string>, cols: seq<Column>, i: nat, t: string)
    requires i < |cols|
    ensures ColumnsOf(names, cols[..i + 1], t)
         == ColumnsOf(names, cols[..i], t) + (if Owner(names, cols[i]) == Some(t) then [cols[i].name] else [])
  {
    assert cols[..i + 1][..i] == cols[..i];
  }

  /** The failure search over one more column. */
  lemma FirstBadSnoc(names: seq<string>, cols: seq<Column>, i: nat)
    requires i < |cols| && !Bad(names, cols[i])
    ensures FirstBad(names, cols[..i + 1]) == FirstBad(names, cols[..i])
  {
    assert cols[..i + 1][..i] == cols[..i];
  }

  /** A skipped column changes neither the groups nor the failure. */
  lemma SkipStep(names: seq<string>, cols: seq<Column>, i: nat)
    requires i < |cols| && Skipped(cols[i])
    ensures Filed(names, cols[..i + 1]) == Filed(names, cols[..i])
    ensures FirstBad(names, cols[..i + 1]) == FirstBad(names, cols[..i])
  {
    FirstBadSnoc(names, cols, i);
    var ks := Distinct(names);
    forall k | 0 <= k < |ks|
      ensures Filed(names, cols[..i + 1])[k] == Filed(names, cols[..i])[k]
    {
      ColumnsOfSnoc(names, cols, i, ks[k]);
    }
  }

  /** A column whose lookup gives position `k` is appended to the group of `names[k]`. */
  lemma FileStep(names: seq<string>, cols: seq<Column>, i: nat, k: nat)
    requires i < |cols| && !Skipped(cols[i]) && PyIndex(|names|, cols[i].tableId) == Some(k)
    ensures Filed(names, cols[..i + 1]) == AppendTo(Filed(names, cols[..i]), names[k], cols[i].name)
    ensures FirstBad(names, cols[..i + 1]) == FirstBad(names, cols[..i])
  {
    FirstBadSnoc(names, cols, i);
    var ks := Distinct(names);
    var before := Filed(names, cols[..i]);
    forall j | 0 <= j < |ks|
      ensures Filed(names, cols[..i + 1])[j] == AppendTo(before, names[k], cols[i].name)[j]
    {
      ColumnsOfSnoc(names, cols, i, ks[j]);
    }
  }

  /** When the columns before `i` are fine and column `i` is bad, it is the first bad one. */
  lemma FirstBadPrefix(names: seq<string>, cols: seq<Column>, i: nat)
    requires i < |cols| && FirstBad(names, cols[..i]).None? && Bad(names, cols[i])
    ensures FirstBad(names, cols) == Some(i)
  {
    assert forall q :: 0 <= q < i ==> cols[..i][q] == cols[q];
  }

  /** The rendering loop produces the parts one by one. */
  lemma PartStep(s: Schema, k: nat)
    requires k < |Parts(s)|
    ensures Parts(s)[..k + 1] == Parts(s)[..k] + [Part(Filed(s.tableNames, s.columns)[k].table,
                                                      Filed(s.tableNames, s.columns)[k].columns)]
  {
  }

  // ----- Properties of the grouping -----

  /** A table's columns keep the order they have in `column_names`: filing two runs of columns
      gives the first run's names followed by the second's. */
  lemma {:induction false} ColumnsOfAppend(names: seq<string>, a: seq<Column>, b: seq<Column>,
                                           t: string)
    ensures ColumnsOf(names, a + b, t) == ColumnsOf(names, a, t) + ColumnsOf(names, b, t)
    decreases |b|
  {
    if b == [] {
      assert a + b == a;
    } else {
      var last := b[|b| - 1];
      assert (a + b)[..|a + b| - 1] == a + b[..|b| - 1];
      assert (a + b)[|a + b| - 1] == last;
      ColumnsOfAppend(names, a, b[..|b| - 1], t);
    }
  }

  /** A skipped column (`-1`-owned or named `*`) never shows up: inserting one anywhere changes
      no table's columns. */
  lemma SkippedNeverListed(names: seq<string>, a: seq<Column>, c: Column, b: seq<Column>,
                           t: string)
    requires Skipped(c)
    ensures ColumnsOf(names, a + [c] + b, t) == ColumnsOf(names, a + b, t)
  {
    ColumnsOfAppend(names, a + [c], b, t);
    ColumnsOfAppend(names, a, [c], t);
    ColumnsOfAppend(names, a, b, t);
    SkippedAlone(names, c, t);
  }

  lemma SkippedAlone(names: seq<string>, c: Column, t: string)
    requires Skipped(c)
    ensures ColumnsOf(names, [c], t) == []
  {
    assert [c][..0] == [];
  }

  /** A name is among table `t`'s columns exactly when some column with that name is filed
      under `t`. */
  lemma {:induction false} ColumnsOfMembers(names: seq<string>, cols: seq<Column>, t: string,
                                            n: string)
    ensures n in ColumnsOf(names, cols, t) <==>
      exists q :: 0 <= q < |cols| && Owner(names, cols[q]) == Some(t) && cols[q].name == n
    decreases |cols|
  {
    if cols != [] {
      var prefix := cols[..|cols| - 1];
      ColumnsOfMembers(names, prefix, t, n);
      if n in ColumnsOf(names, cols, t) {
        if n in ColumnsOf(names, prefix, t) {
          var q :| 0 <= q < |prefix| && Owner(names, prefix[q]) == Some(t) && prefix[q].name == n;
          assert cols[q] == prefix[q];
        } else {
          assert cols[|cols| - 1].name == n;
        }
      }
      if exists q :: 0 <= q < |cols| && Owner(names, cols[q]) == Some(t) && cols[q].name == n {
        var q :| 0 <= q < |cols| && Owner(names, cols[q]) == Some(t) && cols[q].name == n;
        if q < |prefix| {
          assert prefix[q] == cols[q];
        }
      }
    }
  }

  /** A column that is filed lands in exactly one group, the one of its table, and its name is in
      that group's list. */
  lemma FiledOnce(names: seq<string>, cols: seq<Column>, q: nat)
    requires q < |cols| && Owner(names, cols[q]).Some?
    ensures var g := Filed(names, cols); var t := Owner(names, cols[q]).value;
      exists k :: 0 <= k < |g| && g[k].table == t && cols[q].name in g[k].columns
        && forall j :: 0 <= j < |g| && j != k ==> g[j].table != t
  {
    var g := Filed(names, cols);
    var t := Owner(names, cols[q]).value;
    var ks := Distinct(names);
    var k :| 0 <= k < |ks| && ks[k] == t;
    assert g[k].table == t;
    ColumnsOfMembers(names, cols, t, cols[q].name);
    assert forall j :: 0 <= j < |g| && j != k ==> g[j].table == ks[j] != ks[k];
  }

  /** A group lists a name exactly when a column of that name is filed under its table. */
  lemma FiledColumns(names: seq<string>, cols: seq<Column>, k: nat, n: string)
    requires k < |Filed(names, cols)|
    ensures var g := Filed(names, cols)[k];
      n in g.columns <==>
        exists q :: 0 <= q < |cols| && Owner(names, cols[q]) == Some(g.table) && cols[q].name == n
  {
    ColumnsOfMembers(names, cols, Distinct(names)[k], n);
  }

  /** A table that no column is filed under renders as `name()`. */
  lemma EmptyTable(s: Schema, k: nat)
    requires k < |Distinct(s.tableNames)|
    requires forall q :: 0 <= q < |s.columns| ==>
      Owner(s.tableNames, s.columns[q]) != Some(Distinct(s.tableNames)[k])
    ensures Parts(s)[k] == Distinct(s.tableNames)[k] + "()"
  {
    var t := Distinct(s.tableNames)[k];
    var cs := ColumnsOf(s.tableNames, s.columns, t);
    if cs != [] {
      ColumnsOfMembers(s.tableNames, s.columns, t, cs[0]);
    }
  }

  /** The first position of `x` in `xs`. */
  function IndexOf(xs: seq<string>, x: string): (r: nat)
    requires x in xs
    ensures r < |xs| && xs[r] == x
    ensures forall b :: 0 <= b < r ==> xs[b] != x
  {
    if xs[0] == x then 0 else 1 + IndexOf(xs[1..], x)
  }

  /** Only the first occurrence counts, so appending does not move it. */
  lemma IndexOfSnoc(xs: seq<string>, y: string, x: string)
    requires x in xs
    ensures IndexOf(xs + [y], x) == IndexOf(xs, x)
  {
    var i := IndexOf(xs + [y], x);
    var j := IndexOf(xs, x);
    assert (xs + [y])[j] == x;
  }

  /** Each table appears once (the keys are distinct), and the tables come in the order of
      their first occurrence in `table_names`. */
  lemma {:induction false} DistinctInOrder(xs: seq<string>)
    ensures forall i, j :: 0 <= i < j < |Distinct(xs)| ==>
      IndexOf(xs, Distinct(xs)[i]) < IndexOf(xs, Distinct(xs)[j])
    decreases |xs|
  {
    if xs != [] {
      var p := xs[..|xs| - 1];
      var y := xs[|xs| - 1];
      assert xs == p + [y];
      DistinctInOrder(p);
      var d := Distinct(p);
      forall i | 0 <= i < |d|
        ensures IndexOf(xs, d[i]) == IndexOf(p, d[i])
      {
        IndexOfSnoc(p, y, d[i]);
      }
      if y !in d {
        assert IndexOf(xs, y) == |p|;
      }
    }
  }

  // ----- load_tables -----

  /** `{table['db_id']: table for table in tables}`. */
  function LoadTables(tables: seq<Schema>): (m: map<string, Schema>)
    ensures m.Keys == set i | 0 <= i < |tables| :: tables[i].dbId
    ensures forall id :: id in m ==> m[id] in tables && m[id].dbId == id
    decreases |tables|
  {
    if tables == [] then map[]
    else
      var prefix := tables[..|tables| - 1];
      assert forall i :: 0 <= i < |prefix| ==> prefix[i] == tables[i];
      LoadTables(prefix)[tables[|tables| - 1].dbId := tables[|tables| - 1]]
  }

  /** On a repeated `db_id` the last record wins: a record no later record shares its id with
      is the one stored under that id. */
  lemma {:induction false} LastWins(tables: seq<Schema>, i: nat)
    requires i < |tables|
    requires forall j :: i < j < |tables| ==> tables[j].dbId != tables[i].dbId
    ensures LoadTables(tables)[tables[i].dbId] == tables[i]
    decreases |tables|
  {
    if i < |tables| - 1 {
      var prefix := tables[..|tables| - 1];
      assert prefix[i] == tables[i];
      LastWins(prefix, i);
    }
  }
}

=== FILE: sql_examples.dfy ===
/** A worked example of `normalize_sql` on two concrete queries. */
module SqlExamples {
  import opened Strings
  import opened SqlNormalize
  import opened QueryWords

  /** Upper-case keywords and runs of spaces make no difference: `SELECT * FROM T` and
      `select  *   from t` normalise alike. */
  lemma CaseAndSpacingExample()
    ensures NormalizeSql("SELECT * FROM T") == NormalizeSql("select  *   from t")
  {
    UpperWords("SELECT * FROM T");
    SpacedWords("select  *   from t");
    CaseAndSpacingIgnored("SELECT * FROM T", "select  *   from t");
  }
}

/** The words `str.split()` finds in the two example queries. Each literal fact sits in its own
    small lemma, and the lists are built with `FourList`, so that no single proof about the
    literals grows too large for the verifier. */
module QueryWords {
  import opened Strings

  /** The words of the upper-case query, once lower-cased. */
  lemma UpperWords(a: string)
    requires a == "SELECT * FROM T"
    ensures Split(Lower(a)) == ["select", "*", "from", "t"]
  {
    LowerUpper(a);
    SelectWords("select * from t", 1, 1, 1);
  }

  lemma LowerUpper(a: string)
    requires a == "SELECT * FROM T"
    ensures Lower(a) == "select * from t"
  {
    assert forall i | 0 <= i < |a| :: Lower(a)[i] == "select * from t"[i];
  }

  /** The words of the lower-case query with runs of spaces. */
  lemma SpacedWords(b: string)
    requires b == "select  *   from t"
    ensures Split(Lower(b)) == ["select", "*", "from", "t"]
  {
    LowerSpaced(b);
    SelectWords(b, 2, 3, 1);
  }

  lemma LowerSpaced(b: string)
    requires b == "select  *   from t"
    ensures Lower(b) == b
  {
    assert forall i | 0 <= i < |b| :: Lower(b)[i] == b[i];
  }

  /** `select`, `*`, `from` and `t` with any positive number of spaces between them. */
  lemma SelectWords(s: string, n1: nat, n2: nat, n3: nat)
    requires n1 > 0 && n2 > 0 && n3 > 0
    requires s == "select" + (Spaces(n1) + ("*" + (Spaces(n2) + ("from" + (Spaces(n3) + "t")))))
    ensures Split(s) == ["select", "*", "from", "t"]
  {
    var r3 := "from" + (Spaces(n3) + "t");
    var r2 := "*" + (Spaces(n2) + r3);
    KeywordsNoSpace("select");
    KeywordsNoSpace("*");
    KeywordsNoSpace("from");
    KeywordsNoSpace("t");
    OneWord("t");
    WordThenWords("from", n3, "t", ["t"]);
    WordThenWords("*", n2, r3, ["from"] + ["t"]);
    WordThenWords("select", n1, r2, ["*"] + (["from"] + ["t"]));
    FourList("select", "*", "from", "t");
  }

  lemma KeywordsNoSpace(w: string)
    requires w == "select" || w == "*" || w == "from" || w == "t"
    ensures w != [] && NoSpace(w)
  {
    assert forall i | 0 <= i < |w| :: !IsSpace(w[i]);
  }

  lemma FourList<T>(a: T, b: T, c: T, d: T)
    ensures [a] + ([b] + ([c] + [d])) == [a, b, c, d]
  {
  }

  /** A word, at least one space, then a rest that splits into `ws`. */
  lemma WordThenWords(w: string, n: nat, rest: string, ws: seq<string>)
    requires w != [] && NoSpace(w) && n > 0 && Split(rest) == ws
    ensures Split(w + (Spaces(n) + rest)) == [w] + ws
  {
    assert Spaces(n)[0] == ' ';
    SplitFirstWord(w, Spaces(n) + rest);
    SplitSpaces(n, rest);
  }

  /** A single word splits into itself. */
  lemma OneWord(w: string)
    requires w != [] && NoSpace(w)
    ensures Split(w) == [w]
  {
    SplitFirstWord(w, []);
    SplitEmpty();
    assert w + [] == w;
  }

  /** `n` spaces. */
  function Spaces(n: nat): (r: string)
    ensures |r| == n && forall c :: c in r ==> c == ' '
  {
    seq(n, _ => ' ')
  }

  /** Leading spaces do not change the words. */
  lemma {:induction false} SplitSpaces(n: nat, rest: string)
    ensures Split(Spaces(n) + rest) == Split(rest)
  {
    if n > 0 {
      assert Spaces(n) + rest == [' '] + (Spaces(n - 1) + rest);
      SplitSkipSpace(' ', Spaces(n - 1) + rest);
      SplitSpaces(n - 1, rest);
    } else {
      assert Spaces(n) + rest == rest;
    }
  }
}

=== FILE: sql_normalize.dfy ===
/** `normalize_sql` of update_exact_matches.py: lower-case, collapse whitespace, unify quotes,
    delete the whitespace around ten operator and punctuation literals, trim. */
module SqlNormalize {
  import opened Strings
  import opened RegexSub

  /** The literals whose surrounding whitespace is deleted, in the order of the substitutions. */
  const Tokens: seq<string> := [",", "(", ")", "=", "<", ">", "<=", ">=", "!=", "<>"]

  predicate AllTokens(toks: seq<string>) {
    forall i :: 0 <= i < |toks| ==> IsToken(toks[i])
  }

  lemma TokensWellFormed()
    ensures AllTokens(Tokens)
    ensures forall i :: 0 <= i < |Tokens| ==> NoUpper(Tokens[i]) && '"' !in Tokens[i]
  {
  }

  /** `' '.join(s.split())`: the words of `s`, separated by single spaces. */
  function Collapse(s: string): (r: string)
    ensures SingleSpaced(r)
    ensures Split(r) == Split(s)
    ensures RemoveWs(r) == RemoveWs(s)
  {
    JoinSingleSpaced(Split(s));
    SplitJoin(Split(s));
    RemoveWsJoin(Split(s));
    Join(" ", Split(s))
  }

  /** The substitutions for `toks`, applied one after another. */
  function SubAll(s: string, toks: seq<string>): (r: string)
    requires AllTokens(toks)
    ensures RemoveWs(r) == RemoveWs(s)
    ensures s == [] ==> r == []
    decreases |toks|
  {
    if toks == [] then s else SubAll(SubAround(s, toks[0]), toks[1..])
  }

  /** The ten `re.sub` calls of lines 16-25. */
  function Tighten(q: string): (r: string)
    ensures RemoveWs(r) == RemoveWs(q)
  {
    TokensWellFormed();
    SubAll(q, Tokens)
  }

  predicate NoUpper(s: string) {
    forall c :: c in s ==> !IsUpper(c)
  }

  /** The shape of every normalised query: single spaces only and none at either end, no
      upper-case letter, no double quote, no space on either side of `, ( ) = < >` and none
      in front of `!=`. */
  predicate Canonical(r: string) {
    && SingleSpaced(r)
    && NoUpper(r)
    && '"' !in r
    && Tight(r, ',') && Tight(r, '(') && Tight(r, ')')
    && Tight(r, '=') && Tight(r, '<') && Tight(r, '>')
    && !Contains(r, " !=")
  }

  /** The string the substitutions work on: lower-cased, collapsed, quotes unified. */
  function Prepare(sql: string): (q: string)
    ensures SingleSpaced(q) && NoUpper(q) && '"' !in q
    ensures RemoveWs(q) == RemoveWs(ReplaceChar(Lower(sql), '"', '\''))
  {
    PrepareCanonical(sql);
    ReplaceKeepsContent(Collapse(Lower(sql)), Lower(sql), '"', '\'');
    ReplaceChar(Collapse(Lower(sql)), '"', '\'')
  }

  /** `normalize_sql(sql)`. Its properties are stated by `NormalizedCanonical` and
      `NormalizedContent`. */
  function NormalizeSql(sql: string): (r: string)
    ensures sql == [] ==> r == []
  {
    if sql == [] then [] else Strip(Tighten(Prepare(sql)))
  }

  /** The result is canonical: single-spaced and trimmed, without upper-case letters or double
      quotes, and with no space next to a tight literal or in front of `!=`. */
  lemma NormalizedCanonical(sql: string)
    ensures Canonical(NormalizeSql(sql))
  {
    if sql != [] {
      TightenCanonical(Prepare(sql));
      SingleSpacedTrimmed(Tighten(Prepare(sql)));
    }
  }

  /** Only whitespace changes, apart from lower-casing and turning `"` into `'`: deleting all
      whitespace from the result gives the same as deleting it from the lower-cased,
      quote-unified input. */
  lemma NormalizedContent(sql: string)
    ensures RemoveWs(NormalizeSql(sql)) == RemoveWs(ReplaceChar(Lower(sql), '"', '\''))
  {
    if sql == [] {
      assert ReplaceChar(Lower(sql), '"', '\'') == [];
    } else {
      TightenCanonical(Prepare(sql));
      SingleSpacedTrimmed(Tighten(Prepare(sql)));
    }
  }

  // ----- The steps before the substitutions -----

  /** Lower-casing, collapsing and unifying quotes give a single-spaced string without upper-case
      letters or double quotes. */
  lemma PrepareCanonical(sql: string)
    ensures var q := ReplaceChar(Collapse(Lower(sql)), '"', '\'');
      SingleSpaced(q) && NoUpper(q) && '"' !in q
  {
    var x := Collapse(Lower(sql));
    SameContentNoUpper(x, Lower(sql));
    ReplaceKeepsSingleSpaced(x, '"', '\'');
  }

  /** Only whitespace can tell apart two strings with the same content, and it is not upper-case. */
  lemma SameContentNoUpper(x: string, y: string)
    requires RemoveWs(x) == RemoveWs(y) && NoUpper(y)
    ensures NoUpper(x)
  {
    forall c | c in x
      ensures !IsUpper(c)
    {
      if !IsSpace(c) {
        SameNonSpaceChars(x, y, c);
      }
    }
  }

  /** Replacing one non-whitespace character by another keeps the single-spaced shape. */
  lemma ReplaceKeepsSingleSpaced(s: string, a: char, b: char)
    requires SingleSpaced(s) && !IsSpace(a) && !IsSpace(b) && !IsUpper(b) && a != b
    requires NoUpper(s)
    ensures var r := ReplaceChar(s, a, b); SingleSpaced(r) && NoUpper(r) && a !in r
  {
    var r := ReplaceChar(s, a, b);
    assert forall c :: c in r ==> c == b || c in s;
    ReplaceNoDoubleSpace(s, a, b);
  }

  /** Replacement does not create two spaces in a row. */
  lemma {:induction false} ReplaceNoDoubleSpace(s: string, a: char, b: char)
    requires !IsSpace(a) && !IsSpace(b)
    ensures Contains(ReplaceChar(s, a, b), "  ") ==> Contains(s, "  ")
    decreases |s|
  {
    if s != [] {
      var r := ReplaceChar(s, a, b);
      assert r[1..] == ReplaceChar(s[1..], a, b);
      ReplaceNoDoubleSpace(s[1..], a, b);
      StartsWithPair(r, ' ', ' ');
      StartsWithPair(s, ' ', ' ');
    }
  }

  /** Replacing a non-whitespace character with another acts on the content alone. */
  lemma ReplaceKeepsContent(x: string, y: string, a: char, b: char)
    requires RemoveWs(x) == RemoveWs(y) && !IsSpace(a) && !IsSpace(b)
    ensures RemoveWs(ReplaceChar(x, a, b)) == RemoveWs(ReplaceChar(y, a, b))
  {
    ReplaceRemoveWs(x, a, b);
    ReplaceRemoveWs(y, a, b);
  }

  lemma {:induction false} ReplaceRemoveWs(s: string, a: char, b: char)
    requires !IsSpace(a) && !IsSpace(b)
    ensures RemoveWs(ReplaceChar(s, a, b)) == ReplaceChar(RemoveWs(s), a, b)
    decreases |s|
  {
    if s != [] {
      var r := ReplaceChar(s, a, b);
      assert r[1..] == ReplaceChar(s[1..], a, b);
      ReplaceRemoveWs(s[1..], a, b);
      var h := if IsSpace(s[0]) then [] else [s[0]];
      assert RemoveWs(s) == h + RemoveWs(s[1..]);
      assert ReplaceChar(h + RemoveWs(s[1..]), a, b)
        == ReplaceChar(h, a, b) + ReplaceChar(RemoveWs(s[1..]), a, b);
    }
  }

  // ----- The substitutions -----

  /** Every substitution keeps a single-spaced string single-spaced. */
  lemma {:induction false} SubAllSingleSpaced(s: string, toks: seq<string>)
    requires AllTokens(toks) && SingleSpaced(s)
    ensures SingleSpaced(SubAll(s, toks))
    decreases |toks|
  {
    if toks != [] {
      KeepsSingleSpaced(s, toks[0]);
      SubAllSingleSpaced(SubAround(s, toks[0]), toks[1..]);
    }
  }

  /** Substitutions whose literals hold no upper-case letter and no double quote bring in
      neither. */
  lemma {:induction false} SubAllPlain(s: string, toks: seq<string>)
    requires AllTokens(toks) && NoUpper(s) && '"' !in s
    requires forall i :: 0 <= i < |toks| ==> NoUpper(toks[i]) && '"' !in toks[i]
    ensures NoUpper(SubAll(s, toks)) && '"' !in SubAll(s, toks)
    decreases |toks|
  {
    if toks != [] {
      assert NoUpper(toks[0]) && '"' !in toks[0];
      SubAllPlain(SubAround(s, toks[0]), toks[1..]);
    }
  }

  /** Substituting `a` and then `b` is substituting `a + b`. */
  lemma {:induction false} SubAllAppend(s: string, a: seq<string>, b: seq<string>)
    requires AllTokens(a) && AllTokens(b)
    ensures AllTokens(a + b)
    ensures SubAll(s, a + b) == SubAll(SubAll(s, a), b)
    decreases |a|
  {
    if a == [] {
      assert a + b == b;
    } else {
      assert (a + b)[1..] == a[1..] + b;
      SubAllAppend(SubAround(s, a[0]), a[1..], b);
    }
  }

  /** After the substitution for a one-character literal `[c]`, and after every later one, no
      space touches `c`. */
  lemma {:induction false} SubAllTight(s: string, toks: seq<string>, c: char)
    requires AllTokens(toks) && SpacedSuffix(s) && !IsSpace(c)
    requires [c] in toks || Tight(s, c)
    ensures Tight(SubAll(s, toks), c)
    decreases |toks|
  {
    if toks != [] {
      var s' := SubAround(s, toks[0]);
      KeepsSpacedSuffix(s, toks[0]);
      if toks[0] == [c] {
        Tightens(s, toks[0]);
      } else if Tight(s, c) {
        KeepsTight(s, toks[0], c);
      } else {
        assert [c] in toks[1..];
      }
      SubAllTight(s', toks[1..], c);
    }
  }

  /** Later substitutions whose literals start with neither character of `w` keep "space, then
      `w`" absent. */
  lemma {:induction false} SubAllNoSpaceBefore(s: string, toks: seq<string>, w: string)
    requires AllTokens(toks) && SpacedSuffix(s)
    requires |w| == 2 && NoSpace(w)
    requires forall i :: 0 <= i < |toks| ==> toks[i][0] != w[0] && toks[i][0] != w[1]
    requires !Contains(s, [' '] + w)
    ensures !Contains(SubAll(s, toks), [' '] + w)
    decreases |toks|
  {
    if toks != [] {
      KeepsSpacedSuffix(s, toks[0]);
      KeepsNoSpaceBefore(s, toks[0], w);
      SubAllNoSpaceBefore(SubAround(s, toks[0]), toks[1..], w);
    }
  }

  /** The substitutions turn a single-spaced string without upper-case letters or double quotes
      into a canonical one. */
  lemma TightenCanonical(q: string)
    requires SingleSpaced(q) && NoUpper(q) && '"' !in q
    ensures Canonical(Tighten(q))
  {
    TokensWellFormed();
    SubAllSingleSpaced(q, Tokens);
    TightenChars(q);
    TightenTight(q);
    NoSpaceBeforeNotEqual(q);
  }

  /** The substitutions bring in no upper-case letter and no double quote. */
  lemma TightenChars(q: string)
    requires NoUpper(q) && '"' !in q
    ensures NoUpper(Tighten(q)) && '"' !in Tighten(q)
  {
    TokensWellFormed();
    SubAllPlain(q, Tokens);
  }

  /** No space touches any of the one-character literals. */
  lemma TightenTight(q: string)
    requires SingleSpaced(q)
    ensures Tight(Tighten(q), ',') && Tight(Tighten(q), '(') && Tight(Tighten(q), ')')
    ensures Tight(Tighten(q), '=') && Tight(Tighten(q), '<') && Tight(Tighten(q), '>')
  {
    TightenTightAt(q, 0, ',');
    TightenTightAt(q, 1, '(');
    TightenTightAt(q, 2, ')');
    TightenTightAt(q, 3, '=');
    TightenTightAt(q, 4, '<');
    TightenTightAt(q, 5, '>');
  }

  /** No space touches the literal `Tokens[k]` when it is the one character `c`. */
  lemma TightenTightAt(q: string, k: nat, c: char)
    requires SingleSpaced(q) && k < |Tokens| && Tokens[k] == [c]
    ensures Tight(Tighten(q), c)
  {
    TokensWellFormed();
    assert Tokens[k] in Tokens;
    SubAllTight(q, Tokens, c);
  }

  /** The `!=` substitution leaves no space in front of `!=`, and the `<>` one after it keeps it
      that way. */
  lemma NoSpaceBeforeNotEqual(q: string)
    requires SingleSpaced(q)
    ensures !Contains(Tighten(q), " !=")
  {
    TightenSplit(q);
    SubAllSingleSpaced(q, Tokens[..8]);
    NotEqualLast(SubAll(q, Tokens[..8]));
  }

  /** On a single-spaced string, the `!=` substitution followed by the `<>` one leaves no space
      in front of `!=`. */
  lemma NotEqualLast(p: string)
    requires SingleSpaced(p)
    ensures !Contains(SubAll(SubAround(p, "!="), ["<>"]), " !=")
  {
    NoSpaceBefore(p, "!=");
    KeepsSpacedSuffix(p, "!=");
    var back: seq<string> := ["<>"];
    assert |back| == 1 && back[0] == "<>" && IsToken(back[0]);
    SubAllNoSpaceBefore(SubAround(p, "!="), back, "!=");
    assert " !=" == [' '] + "!=";
  }

  /** The substitutions are those before `!=`, then the one for `!=`, then the one for `<>`. */
  lemma TightenSplit(q: string)
    ensures AllTokens(Tokens[..8])
    ensures Tighten(q) == SubAll(SubAround(SubAll(q, Tokens[..8]), "!="), ["<>"])
  {
    TokensWellFormed();
    var front := Tokens[..8];
    var back := ["<>"];
    assert Tokens == front + (["!="] + back);
    SubAllAppend(q, front, ["!="] + back);
    assert (["!="] + back)[0] == "!=" && (["!="] + back)[1..] == back;
  }

  // ----- Canonical strings are fixed points -----

  /** On a canonical string every step of `normalize_sql` changes nothing. */
  lemma CanonicalUnchanged(r: string)
    requires Canonical(r)
    ensures NormalizeSql(r) == r
  {
    if r != [] {
      PrepareUnchanged(r);
      TightenUnchanged(r);
      SingleSpacedTrimmed(r);
    }
  }

  /** Lower-casing, collapsing the spacing and unifying the quotes leave a canonical string
      alone. */
  lemma PrepareUnchanged(r: string)
    requires Canonical(r)
    ensures Prepare(r) == r
  {
    assert Lower(r) == r;
    JoinSplitSingleSpaced(r);
    assert ReplaceChar(r, '"', '\'') == r;
  }

  /** The substitutions leave a canonical string alone. */
  lemma TightenUnchanged(r: string)
    requires Canonical(r)
    ensures Tighten(r) == r
  {
    TokensWellFormed();
    TightOnTokens(r);
    SubAllUnchanged(r, Tokens);
  }

  /** A canonical string has no space on either side of any of the `Tokens`. */
  lemma TightOnTokens(r: string)
    requires Canonical(r)
    ensures forall i :: 0 <= i < |Tokens| ==>
      !Contains(r, [' '] + Tokens[i]) && !Contains(r, Tokens[i] + [' '])
  {
    forall i | 0 <= i < |Tokens|
      ensures !Contains(r, [' '] + Tokens[i]) && !Contains(r, Tokens[i] + [' '])
    {
      var t := Tokens[i];
      if i == 0 || i == 1 || i == 2 || i == 3 || i == 4 || i == 5 {
        assert t == [t[0]];
        assert [' '] + t == [' ', t[0]] && t + [' '] == [t[0], ' '];
      } else {
        assert t == [t[0], t[1]];
        assert [' '] + t == [' ', t[0], t[1]] && t + [' '] == [t[0], t[1], ' '];
        AfterUntouched(r, t[0], t[1]);
        if i != 8 {
          PairUntouched(r, t[0], t[1]);
        }
      }
    }
  }

  /** Around a two-character literal whose characters are both tight there is no space. */
  lemma PairUntouched(r: string, a: char, b: char)
    requires Tight(r, a) && Tight(r, b)
    ensures !Contains(r, [' ', a, b])
  {
    if Contains(r, [' ', a, b]) {
      assert [' ', a, b] == [' ', a] + [b];
      ContainsParts(r, [' ', a], [b]);
    }
  }

  /** No space follows a two-character literal whose second character is tight. */
  lemma AfterUntouched(r: string, a: char, b: char)
    requires Tight(r, b)
    ensures !Contains(r, [a, b, ' '])
  {
    if Contains(r, [a, b, ' ']) {
      assert [a, b, ' '] == [a] + [b, ' '];
      ContainsParts(r, [a], [b, ' ']);
    }
  }

  /** Substitutions with no space next to their literals change nothing. */
  lemma {:induction false} SubAllUnchanged(s: string, toks: seq<string>)
    requires AllTokens(toks) && PlainSpaces(s)
    requires forall i :: 0 <= i < |toks| ==>
      !Contains(s, [' '] + toks[i]) && !Contains(s, toks[i] + [' '])
    ensures SubAll(s, toks) == s
    decreases |toks|
  {
    if toks != [] {
      Unchanged(s, toks[0]);
      SubAllUnchanged(s, toks[1..]);
    }
  }

  // ----- Properties of normalize_sql -----

  /** The normalised strings are exactly the fixed points of normalisation. */
  lemma FixedPoints(s: string)
    ensures NormalizeSql(s) == s <==> Canonical(s)
  {
    NormalizedCanonical(s);
    if Canonical(s) {
      CanonicalUnchanged(s);
    }
  }

  /** Normalising twice is normalising once. */
  lemma Idempotent(s: string)
    ensures NormalizeSql(NormalizeSql(s)) == NormalizeSql(s)
  {
    NormalizedCanonical(s);
    CanonicalUnchanged(NormalizeSql(s));
  }

  /** Two queries with the same words up to letter case normalise alike. */
  lemma CaseAndSpacingIgnored(a: string, b: string)
    requires Split(Lower(a)) == Split(Lower(b))
    ensures NormalizeSql(a) == NormalizeSql(b)
  {
    if a == [] || b == [] {
      assert Lower([]) == [];
      assert Split([]) == [] by {
        SplitEmpty();
      }
      EmptyWords(a);
      EmptyWords(b);
    }
  }

  /** Text without words normalises to the empty string. */
  lemma EmptyWords(s: string)
    requires Split(Lower(s)) == []
    ensures NormalizeSql(s) == []
  {
    if s != [] {
      var q := ReplaceChar(Collapse(Lower(s)), '"', '\'');
      assert Collapse(Lower(s)) == [];
      assert q == [];
      assert Tighten(q) == [];
      StripTrimmed(Tighten(q));
    }
  }

  // ----- Which spaces stay -----

  /** The characters every literal ends with: `, ( ) = < >`. */
  predicate IsTightChar(c: char) {
    c == ',' || c == '(' || c == ')' || c == '=' || c == '<' || c == '>'
  }

  /** A literal that ends with a tight character and starts with one or with `!`. */
  predicate HasTightEdges(tok: string) {
    tok != [] && IsTightChar(tok[|tok| - 1]) && (IsTightChar(tok[0]) || tok[0] == '!')
  }

  lemma TokenEdges()
    ensures forall i :: 0 <= i < |Tokens| ==> HasTightEdges(Tokens[i])
  {
  }

  /** A space between `u` and `v` that no substitution touches: no whitespace next to it, no
      literal ending `u` and none starting `v`. */
  predicate GapKept(u: string, v: string) {
    && u != [] && v != []
    && !IsSpace(u[|u| - 1]) && !IsTightChar(u[|u| - 1])
    && !IsSpace(v[0]) && !IsTightChar(v[0]) && v[0] != '!'
  }

  /** The substitutions keep such a space and rewrite each side on its own. */
  lemma {:induction false} SubAllGap(a: string, b: string, toks: seq<string>)
    requires AllTokens(toks) && GapKept(a, b)
    requires forall i :: 0 <= i < |toks| ==> HasTightEdges(toks[i])
    ensures SubAll(a + ([' '] + b), toks) == SubAll(a, toks) + ([' '] + SubAll(b, toks))
    decreases |toks|
  {
    if toks != [] {
      var tok := toks[0];
      assert IsToken(tok) && HasTightEdges(tok);
      SubAroundKeepsGap(a, b, tok);
      SubAllGap(SubAround(a, tok), SubAround(b, tok), toks[1..]);
    }
  }

  /** One substitution keeps such a space, and the two sides it leaves still meet in one. */
  lemma SubAroundKeepsGap(a: string, b: string, tok: string)
    requires IsToken(tok) && HasTightEdges(tok) && GapKept(a, b)
    ensures SubAround(a + ([' '] + b), tok) == SubAround(a, tok) + ([' '] + SubAround(b, tok))
    ensures GapKept(SubAround(a, tok), SubAround(b, tok))
  {
    LastDiffers(a, tok);
    FirstDiffers(b, tok);
    SubAroundGap(a, b, tok);
    SubAroundLast(a, tok);
  }

  /** The ten substitutions keep such a space. */
  lemma TightenGap(q: string, a: string, b: string)
    requires q == a + (" " + b) && GapKept(a, b)
    ensures Tighten(q) == Tighten(a) + (" " + Tighten(b))
  {
    TokensWellFormed();
    TokenEdges();
    SubAllGap(a, b, Tokens);
  }

  /** The words `normalize_sql` works on: those of the lower-cased query, with `"` turned into
      `'`. */
  function Words(sql: string): seq<string> {
    ReplaceEach(Split(Lower(sql)), '"', '\'')
  }

  lemma WordsAreWords(sql: string)
    ensures forall w :: w in Words(sql) ==> w != [] && NoSpace(w)
    ensures sql == [] ==> Words(sql) == []
  {
    var ws := Split(Lower(sql));
    forall i | 0 <= i < |ws|
      ensures Words(sql)[i] != [] && NoSpace(Words(sql)[i])
    {
      assert ws[i] in ws;
      assert forall c :: c in Words(sql)[i] ==> c == '\'' || c in ws[i];
    }
    if sql == [] {
      assert Lower(sql) == [];
      SplitEmpty();
    }
  }

  /** Before the substitutions, the query is its words separated by single spaces, and
      `str.split()` gives those words back. */
  lemma PreparedWords(sql: string)
    ensures Prepare(sql) == Join(" ", Words(sql))
    ensures Split(Prepare(sql)) == Words(sql)
  {
    ReplaceJoin(" ", Split(Lower(sql)), '"', '\'');
    WordsAreWords(sql);
    SplitJoin(Words(sql));
  }

  /** For a non-empty query the final `strip` has nothing left to do. */
  lemma NormalizeIsTighten(sql: string)
    requires sql != []
    ensures NormalizeSql(sql) == Tighten(Prepare(sql))
  {
    TightenCanonical(Prepare(sql));
    SingleSpacedTrimmed(Tighten(Prepare(sql)));
  }

  /** A space between two words survives normalisation when the first word does not end with
      one of `, ( ) = < >` and the second does not start with one of them or `!`: the result is
      the words before it and the words after it, each joined and substituted, with that space
      between them. */
  lemma NormalizeKeepsGap(sql: string, k: nat)
    requires 0 < k < |Words(sql)|
    requires GapKept(Words(sql)[k - 1], Words(sql)[k])
    ensures NormalizeSql(sql) ==
      Tighten(Join(" ", Words(sql)[..k])) + (" " + Tighten(Join(" ", Words(sql)[k..])))
  {
    WordsAreWords(sql);
    NormalizeIsTighten(sql);
    PreparedWords(sql);
    JoinGap(Words(sql), k);
  }

  /** The substitutions on words joined by single spaces keep a space that `GapKept` allows. */
  lemma JoinGap(ws: seq<string>, k: nat)
    requires 0 < k < |ws| && GapKept(ws[k - 1], ws[k])
    ensures Tighten(Join(" ", ws)) == Tighten(Join(" ", ws[..k])) + (" " + Tighten(Join(" ", ws[k..])))
  {
    var a := Join(" ", ws[..k]);
    var b := Join(" ", ws[k..]);
    JoinAt(" ", ws, k);
    JoinsAround(ws, k, a, b);
    TightenGap(Join(" ", ws), a, b);
  }

  /** The joins on either side of the space meet as the two words there do. */
  lemma JoinsAround(ws: seq<string>, k: nat, a: string, b: string)
    requires 0 < k < |ws| && GapKept(ws[k - 1], ws[k])
    requires a == Join(" ", ws[..k]) && b == Join(" ", ws[k..])
    ensures GapKept(a, b)
  {
    assert ws[..k][k - 1] == ws[k - 1];
    JoinEnd(" ", ws[..k]);
    assert ws[k..][0] == ws[k];
    JoinFirst(" ", ws[k..]);
  }

  // ----- Only whitespace is deleted -----

  /** A run of substitutions only deletes whitespace. */
  lemma {:induction false} SubAllDrops(s: string, toks: seq<string>)
    requires AllTokens(toks)
    ensures DropsWs(s, SubAll(s, toks))
    decreases |toks|
  {
    if toks == [] {
      DropsSelf(s);
    } else {
      var t := SubAround(s, toks[0]);
      SubAroundDrops(s, toks[0]);
      SubAllDrops(t, toks[1..]);
      DropsTrans(s, t, SubAll(t, toks[1..]));
    }
  }

  /** The ten substitutions only delete whitespace. */
  lemma TightenDrops(q: string)
    ensures DropsWs(q, Tighten(q))
  {
    TokensWellFormed();
    SubAllDrops(q, Tokens);
  }

  /** Once the query is lower-cased, its whitespace runs collapsed and its double quotes
      replaced, the rest of `normalize_sql` only deletes whitespace: the result is the prepared
      query with some of its spaces removed and nothing added or moved. */
  lemma NormalizeDropsWs(sql: string)
    ensures DropsWs(Prepare(sql), NormalizeSql(sql))
  {
    if sql == [] {
      assert Lower(sql) == [];
      assert Collapse(Lower(sql)) == [];
    } else {
      var q := Prepare(sql);
      TightenDrops(q);
      StripDrops(Tighten(q));
      DropsTrans(q, Tighten(q), Strip(Tighten(q)));
    }
  }
}

=== FILE: strings.dfy ===
/** Python's string primitives as the three scripts use them, on ASCII text:
    whitespace, `lower`, `replace`, `split`, `join`, `strip` and substring search. */
module Strings {

  /** The whitespace this model recognises: space, tab, line feed, carriage return, form feed and
      vertical tab. This is a chosen subset of what `str.split`, `str.strip` and the regex class
      `\s` accept; the separators U+001C to U+001F and all non-ASCII whitespace are ordinary
      characters here. */
  predicate IsSpace(c: char) {
    c == ' ' || c == '\t' || c == '\n' || c == '\r' || c == '\U{C}' || c == '\U{B}'
  }

  predicate IsUpper(c: char) {
    'A' <= c <= 'Z'
  }

  function LowerChar(c: char): char {
    if IsUpper(c) then (c as int + 32) as char else c
  }

  /** `str.lower()` on ASCII letters; every other character is kept. */
  function Lower(s: string): string {
    seq(|s|, i requires 0 <= i < |s| => LowerChar(s[i]))
  }

  /** `str.replace(a, b)` for one-character `a` and `b`. */
  function ReplaceChar(s: string, a: char, b: char): string {
    seq(|s|, i requires 0 <= i < |s| => if s[i] == a then b else s[i])
  }

  predicate NoSpace(s: string) {
    forall c :: c in s ==> !IsSpace(c)
  }

  predicate AllSpace(s: string) {
    forall c :: c in s ==> IsSpace(c)
  }

  /** The non-whitespace characters of `s`, in their order. */
  function RemoveWs(s: string): string
    decreases |s|
  {
    if s == [] then [] else (if IsSpace(s[0]) then [] else [s[0]]) + RemoveWs(s[1..])
  }

  /** Concatenation of a sequence of strings (`"".join(parts)`). */
  function Concat(parts: seq<string>): string
    decreases |parts|
  {
    if parts == [] then [] else parts[0] + Concat(parts[1..])
  }

  /** `sep.join(parts)`. */
  function Join(sep: string, parts: seq<string>): string
    decreases |parts|
  {
    if |parts| == 0 then []
    else if |parts| == 1 then parts[0]
    else parts[0] + sep + Join(sep, parts[1..])
  }

  /** Length of the longest whitespace prefix. */
  function LeadingWs(s: string): (k: nat)
    ensures k <= |s|
    ensures AllSpace(s[..k])
    ensures k < |s| ==> !IsSpace(s[k])
    decreases |s|
  {
    if s != [] && IsSpace(s[0]) then
      var k := 1 + LeadingWs(s[1..]);
      assert s[..k] == [s[0]] + s[1..][..k - 1];
      k
    else 0
  }

  /** Where the longest whitespace suffix begins. */
  function TrimEnd(s: string): (e: nat)
    ensures e <= |s|
    ensures AllSpace(s[e..])
    ensures e > 0 ==> !IsSpace(s[e - 1])
    decreases |s|
  {
    if s != [] && IsSpace(s[|s| - 1]) then
      var init := s[..|s| - 1];
      var e := TrimEnd(init);
      AllSpaceSnoc(init, e, s[|s| - 1]);
      assert init + [s[|s| - 1]] == s;
      e
    else |s|
  }

  lemma AllSpaceSnoc(s: string, e: nat, c: char)
    requires e <= |s| && AllSpace(s[e..]) && IsSpace(c)
    ensures AllSpace((s + [c])[e..])
  {
    assert (s + [c])[e..] == s[e..] + [c];
  }

  /** Length of the longest prefix free of whitespace. */
  function WordLen(s: string): (n: nat)
    ensures n <= |s|
    ensures NoSpace(s[..n])
    ensures n < |s| ==> IsSpace(s[n])
    decreases |s|
  {
    if s != [] && !IsSpace(s[0]) then
      var n := 1 + WordLen(s[1..]);
      assert s[..n] == [s[0]] + s[1..][..n - 1];
      n
    else 0
  }

  /** `str.strip()`: the part of `s` between its leading and trailing whitespace. */
  function Strip(s: string): (r: string)
    ensures RemoveWs(r) == RemoveWs(s)
    ensures r != [] ==> !IsSpace(r[0]) && !IsSpace(r[|r| - 1])
    ensures |r| <= |s|
    ensures var i := LeadingWs(s);
      i + |r| <= |s| && s[i..i + |r|] == r && AllSpace(s[..i]) && AllSpace(s[i + |r|..])
  {
    var t := s[LeadingWs(s)..];
    StripShape(s);
    t[..TrimEnd(t)]
  }

  /** What is left between the two whitespace runs. */
  lemma StripShape(s: string)
    ensures var i := LeadingWs(s); var t := s[i..]; var r := t[..TrimEnd(t)];
      && RemoveWs(r) == RemoveWs(s)
      && (r != [] ==> !IsSpace(r[0]) && !IsSpace(r[|r| - 1]))
      && i + |r| <= |s| && s[i..i + |r|] == r && AllSpace(s[i + |r|..])
  {
    StripKeepsContent(s);
    StripPosition(s);
  }

  lemma StripKeepsContent(s: string)
    ensures var i := LeadingWs(s); var t := s[i..];
      RemoveWs(t[..TrimEnd(t)]) == RemoveWs(s)
  {
    var t := s[LeadingWs(s)..];
    StripContent(s, LeadingWs(s), t);
    StripContent(t, TrimEnd(t), t[..TrimEnd(t)]);
  }

  lemma StripPosition(s: string)
    ensures var i := LeadingWs(s); var t := s[i..]; var r := t[..TrimEnd(t)];
      && (r != [] ==> !IsSpace(r[0]) && !IsSpace(r[|r| - 1]))
      && i + |r| <= |s| && s[i..i + |r|] == r && AllSpace(s[i + |r|..])
  {
    var i := LeadingWs(s);
    var t := s[i..];
    StripEnds(t);
    StripSlices(s, i, TrimEnd(t));
  }

  lemma StripEnds(t: string)
    requires t != [] ==> !IsSpace(t[0])
    ensures var r := t[..TrimEnd(t)]; r != [] ==> !IsSpace(r[0]) && !IsSpace(r[|r| - 1])
  {
  }

  lemma StripSlices(s: string, i: nat, e: nat)
    requires i <= |s| && e <= |s| - i && AllSpace(s[i..][e..])
    ensures s[i..i + e] == s[i..][..e] && AllSpace(s[i + e..])
  {
    assert s[i + e..] == s[i..][e..];
  }

  /** Dropping a whitespace prefix, or a whitespace suffix, keeps the content. */
  lemma StripContent(s: string, i: nat, t: string)
    requires i <= |s|
    requires (AllSpace(s[..i]) && t == s[i..]) || (AllSpace(s[i..]) && t == s[..i])
    ensures RemoveWs(t) == RemoveWs(s)
  {
    assert s == s[..i] + s[i..];
    RemoveWsAppend(s[..i], s[i..]);
    if AllSpace(s[..i]) && t == s[i..] {
      RemoveWsAllSpace(s[..i]);
    } else {
      RemoveWsAllSpace(s[i..]);
    }
  }

  /** `str.split()` without a separator: the maximal runs of non-whitespace, in order. */
  function Split(s: string): (words: seq<string>)
    ensures forall w :: w in words ==> w != [] && NoSpace(w)
    ensures Concat(words) == RemoveWs(s)
    decreases |s|
  {
    var k := LeadingWs(s);
    var t := s[k..];
    assert s == s[..k] + t;
    RemoveWsAppend(s[..k], t);
    RemoveWsAllSpace(s[..k]);
    if t == [] then []
    else
      var n := WordLen(t);
      assert t == t[..n] + t[n..];
      RemoveWsAppend(t[..n], t[n..]);
      RemoveWsNoSpace(t[..n]);
      var words := [t[..n]] + Split(t[n..]);
      assert words[1..] == Split(t[n..]);
      words
  }

  predicate StartsWith(s: string, p: string) {
    |p| <= |s| && s[..|p|] == p
  }

  predicate EndsWith(s: string, p: string) {
    |p| <= |s| && s[|s| - |p|..] == p
  }

  /** `p in s` for strings: `p` occurs somewhere in `s`. */
  predicate Contains(s: string, p: string)
    decreases |s|
  {
    StartsWith(s, p) || (s != [] && Contains(s[1..], p))
  }

  /** Every whitespace character of `s` is a plain space. */
  predicate PlainSpaces(s: string) {
    forall c :: c in s && IsSpace(c) ==> c == ' '
  }

  /** The shape of any suffix of a single-spaced string: plain spaces only, never two in a row,
      none at the end (one at the start is allowed). */
  predicate SpacedSuffix(s: string) {
    && PlainSpaces(s)
    && !Contains(s, "  ")
    && (s != [] ==> s[|s| - 1] != ' ')
  }

  /** What `' '.join(s.split())` produces: words separated by exactly one space, no space at
      either end. */
  predicate SingleSpaced(s: string) {
    SpacedSuffix(s) && (s != [] ==> s[0] != ' ')
  }

  // ----- RemoveWs -----

  lemma {:induction false} RemoveWsAppend(a: string, b: string)
    ensures RemoveWs(a + b) == RemoveWs(a) + RemoveWs(b)
    decreases |a|
  {
    if a == [] {
      assert a + b == b;
    } else {
      assert (a + b)[1..] == a[1..] + b;
      RemoveWsAppend(a[1..], b);
    }
  }

  lemma {:induction false} RemoveWsAllSpace(s: string)
    requires AllSpace(s)
    ensures RemoveWs(s) == []
    decreases |s|
  {
    if s != [] {
      assert s[0] in s;
      assert forall c :: c in s[1..] ==> c in s;
      RemoveWsAllSpace(s[1..]);
    }
  }

  lemma {:induction false} RemoveWsNoSpace(s: string)
    requires NoSpace(s)
    ensures RemoveWs(s) == s
    decreases |s|
  {
    if s != [] {
      assert s[0] in s;
      assert forall c :: c in s[1..] ==> c in s;
      RemoveWsNoSpace(s[1..]);
    }
  }

  /** A non-whitespace character occurs in `s` exactly when it occurs in `RemoveWs(s)`. */
  lemma {:induction false} RemoveWsMembers(s: string, c: char)
    requires !IsSpace(c)
    ensures c in s <==> c in RemoveWs(s)
    decreases |s|
  {
    if s != [] {
      assert s == [s[0]] + s[1..];
      RemoveWsMembers(s[1..], c);
    }
  }

  /** Two strings with the same non-whitespace content have the same non-whitespace characters. */
  lemma SameNonSpaceChars(a: string, b: string, c: char)
    requires RemoveWs(a) == RemoveWs(b)
    requires !IsSpace(c)
    ensures c in a <==> c in b
  {
    RemoveWsMembers(a, c);
    RemoveWsMembers(b, c);
  }

  // ----- Contains -----

  /** An occurrence in a suffix is an occurrence in the whole. */
  lemma {:induction false} ContainsInSuffix(s: string, k: nat, p: string)
    requires k <= |s|
    requires Contains(s[k..], p)
    ensures Contains(s, p)
    decreases k
  {
    if k > 0 {
      assert s[1..][k - 1..] == s[k..];
      ContainsInSuffix(s[1..], k - 1, p);
    }
  }

  /** An occurrence of a two-character pattern in `a + b` lies in `a`, in `b`, or across the seam. */
  lemma {:induction false} ContainsPairAppend(a: string, b: string, p: string)
    requires |p| == 2
    ensures Contains(a + b, p) ==>
              || Contains(a, p)
              || Contains(b, p)
              || (a != [] && b != [] && a[|a| - 1] == p[0] && b[0] == p[1])
    decreases |a|
  {
    if a == [] {
      assert a + b == b;
    } else {
      if |a| >= 2 {
        assert a[..2] == (a + b)[..2];
      } else if b != [] {
        assert b[0] == (a + b)[1];
      }
      assert (a + b)[1..] == a[1..] + b;
      ContainsPairAppend(a[1..], b, p);
    }
  }

  /** Unfolding `Contains` once on a string with a known first character. */
  lemma ContainsCons(c: char, s: string, p: string)
    ensures Contains([c] + s, p) <==> StartsWith([c] + s, p) || Contains(s, p)
  {
    assert ([c] + s)[1..] == s;
  }

  /** A two-character prefix, character by character. */
  lemma StartsWithPair(s: string, a: char, b: char)
    ensures StartsWith(s, [a, b]) <==> |s| >= 2 && s[0] == a && s[1] == b
  {
    if |s| >= 2 {
      assert s[..2] == [s[0], s[1]];
    }
  }

  /** A three-character prefix, character by character. */
  lemma StartsWithTriple(s: string, a: char, b: char, c: char)
    ensures StartsWith(s, [a, b, c]) <==> |s| >= 3 && s[0] == a && s[1] == b && s[2] == c
  {
    if |s| >= 3 {
      assert s[..3] == [s[0], s[1], s[2]];
    }
  }

  /** A pattern whose first character does not occur in `a` occurs in `a + b` only inside `b`. */
  lemma {:induction false} ContainsSkipPrefix(a: string, b: string, p: string)
    requires p != [] && p[0] !in a
    ensures Contains(a + b, p) ==> Contains(b, p)
    decreases |a|
  {
    if a != [] {
      assert (a + b)[0] == a[0];
      assert (a + b)[1..] == a[1..] + b;
      ContainsSkipPrefix(a[1..], b, p);
    } else {
      assert a + b == b;
    }
  }


  /** An occurrence of `p + q` contains an occurrence of `p` and one of `q`. */
  lemma {:induction false} ContainsParts(s: string, p: string, q: string)
    requires Contains(s, p + q)
    ensures Contains(s, p) && Contains(s, q)
    decreases |s|
  {
    if StartsWith(s, p + q) {
      assert s[..|p|] == s[..|p + q|][..|p|];
      assert s[|p|..][..|q|] == s[..|p + q|][|p|..];
      assert StartsWith(s[|p|..], q);
      ContainsInSuffix(s, |p|, q);
    } else {
      ContainsParts(s[1..], p, q);
    }
  }

  // ----- Whitespace shapes -----

  lemma SpacedSuffixDrop(s: string, k: nat)
    requires SpacedSuffix(s) && k <= |s|
    ensures SpacedSuffix(s[k..])
  {
    assert forall c :: c in s[k..] ==> c in s;
    if Contains(s[k..], "  ") {
      ContainsInSuffix(s, k, "  ");
    }
  }

  /** A word without whitespace contains no pattern that starts with whitespace. */
  lemma {:induction false} NoSpaceAvoids(w: string, p: string)
    requires NoSpace(w)
    requires p != [] && IsSpace(p[0])
    ensures !Contains(w, p)
    decreases |w|
  {
    if w != [] {
      assert w[0] in w;
      assert forall c :: c in w[1..] ==> c in w;
      NoSpaceAvoids(w[1..], p);
    }
  }

  /** Words joined by single spaces form a single-spaced string. */
  lemma {:induction false} JoinSingleSpaced(words: seq<string>)
    requires forall w :: w in words ==> w != [] && NoSpace(w)
    ensures SingleSpaced(Join(" ", words))
    ensures words != [] ==> Join(" ", words) != []
    decreases |words|
  {
    if |words| == 1 {
      var w := words[0];
      assert w in words;
      assert w[0] in w && w[|w| - 1] in w;
      NoSpaceAvoids(w, "  ");
    } else if |words| > 1 {
      var w := words[0];
      assert w in words;
      assert w[0] in w && w[|w| - 1] in w;
      assert forall v :: v in words[1..] ==> v in words;
      JoinSingleSpaced(words[1..]);
      var rest := Join(" ", words[1..]);
      var ws := w + " ";
      var j := ws + rest;
      assert Join(" ", words) == j;
      assert !Contains(ws, "  ") by {
        if Contains(ws, "  ") {
          ContainsPairAppend(w, " ", "  ");
          NoSpaceAvoids(w, "  ");
        }
      }
      assert !Contains(j, "  ") by {
        if Contains(j, "  ") {
          ContainsPairAppend(ws, rest, "  ");
        }
      }
      assert PlainSpaces(j) by {
        forall c | c in j && IsSpace(c)
          ensures c == ' '
        {
          assert c in w || c == ' ' || c in rest;
        }
      }
      assert j[|j| - 1] == rest[|rest| - 1];
      assert j[0] == w[0];
    }
  }

  /** Joining words with single spaces removes nothing but the spaces. */
  lemma {:induction false} RemoveWsJoin(words: seq<string>)
    requires forall w :: w in words ==> NoSpace(w)
    ensures RemoveWs(Join(" ", words)) == Concat(words)
    decreases |words|
  {
    if |words| == 1 {
      assert words[0] in words;
      RemoveWsNoSpace(words[0]);
      assert Concat(words) == words[0] + Concat([]);
    } else if |words| > 1 {
      assert words[0] in words;
      assert forall v :: v in words[1..] ==> v in words;
      RemoveWsJoin(words[1..]);
      RemoveWsAppend(words[0] + " ", Join(" ", words[1..]));
      RemoveWsAppend(words[0], " ");
      RemoveWsNoSpace(words[0]);
      assert RemoveWs(" ") == [];
    }
  }

  lemma SplitEmpty()
    ensures Split([]) == []
  {
    var e: string := [];
    assert LeadingWs(e) == 0;
    assert e[0..] == [];
  }

  /** Leading whitespace does not change the words. */
  lemma SplitSkipSpace(c: char, x: string)
    requires IsSpace(c)
    ensures Split([c] + x) == Split(x)
  {
    var s := [c] + x;
    assert s[1..] == x;
    var k := LeadingWs(s);
    assert k == 1 + LeadingWs(x);
    assert s[k..] == x[LeadingWs(x)..];
  }

  /** A word followed by whitespace (or by nothing) is split off as the first word. */
  lemma SplitFirstWord(w: string, tail: string)
    requires w != [] && NoSpace(w)
    requires tail == [] || IsSpace(tail[0])
    ensures Split(w + tail) == [w] + Split(tail)
  {
    var s := w + tail;
    assert w[0] in w;
    assert s[0] == w[0];
    assert LeadingWs(s) == 0;
    assert s[0..] == s;
    WordLenOfWord(w, tail);
    assert s[|w|..] == tail;
  }

  lemma {:induction false} WordLenOfWord(w: string, tail: string)
    requires NoSpace(w)
    requires tail == [] || IsSpace(tail[0])
    ensures WordLen(w + tail) == |w|
    ensures (w + tail)[..|w|] == w
    decreases |w|
  {
    if w != [] {
      assert w[0] in w;
      assert forall c :: c in w[1..] ==> c in w;
      assert (w + tail)[1..] == w[1..] + tail;
      WordLenOfWord(w[1..], tail);
    } else {
      assert w + tail == tail;
    }
  }

  /** Where a single-spaced string's first word ends, one space and a single-spaced rest follow. */
  lemma SingleSpacedAfterWord(s: string, n: nat)
    requires SingleSpaced(s)
    requires n < |s| && IsSpace(s[n])
    ensures s[n] == ' ' && n + 1 < |s|
    ensures s == s[..n] + ([' '] + s[n + 1..])
    ensures s == s[..n] + " " + s[n + 1..]
    ensures SingleSpaced(s[n + 1..])
  {
    SpaceAfterWord(s, n);
    var tail := s[n + 1..];
    assert s == s[..n] + ([' '] + tail) by {
      assert s == s[..n] + s[n..];
      assert s[n..] == [s[n]] + tail;
    }
    SpacedSuffixDrop(s, n + 1);
  }

  /** In a single-spaced string a word that is not the last is followed by one space and then
      a non-whitespace character. */
  lemma SpaceAfterWord(s: string, n: nat)
    requires SingleSpaced(s)
    requires n < |s| && IsSpace(s[n])
    ensures s[n] == ' ' && n + 1 < |s| && !IsSpace(s[n + 1])
  {
    assert s[n] in s;
    assert n + 1 < |s| ==> s[n + 1] in s;
    DoubleSpaceAt(s, n);
  }

  /** Two spaces at position `n` are an occurrence of `"  "`. */
  lemma DoubleSpaceAt(s: string, n: nat)
    requires n + 1 < |s|
    ensures s[n] == ' ' && s[n + 1] == ' ' ==> Contains(s, "  ")
  {
    if s[n] == ' ' && s[n + 1] == ' ' {
      assert s[n..][..2] == "  ";
      ContainsInSuffix(s, n, "  ");
    }
  }

  /** `' '.join(s.split())` leaves a single-spaced string unchanged. */
  lemma {:induction false} JoinSplitSingleSpaced(s: string)
    requires SingleSpaced(s)
    ensures Join(" ", Split(s)) == s
    decreases |s|
  {
    if s == [] {
      SplitEmpty();
    } else {
      assert s[0] in s;
      var n := WordLen(s);
      var w := s[..n];
      if n < |s| {
        SingleSpacedAfterWord(s, n);
        var tail := s[n + 1..];
        SplitFirstWord(w, [' '] + tail);
        SplitSkipSpace(' ', tail);
        JoinSplitSingleSpaced(tail);
        assert Split(tail) != [] by {
          assert tail[0] in tail;
          assert LeadingWs(tail) == 0;
        }
        var ws := Split(s);
        assert ws == [w] + Split(tail);
        assert ws[1..] == Split(tail);
        assert |ws| >= 2;
        calc {
          Join(" ", ws);
          w + " " + Join(" ", Split(tail));
          w + " " + tail;
          s;
        }
      } else {
        assert s == s + [];
        SplitFirstWord(s, []);
        SplitEmpty();
      }
    }
  }

  /** `str.split()` recovers the words that a single-space join was made of. */
  lemma {:induction false} SplitJoin(words: seq<string>)
    requires forall w :: w in words ==> w != [] && NoSpace(w)
    ensures Split(Join(" ", words)) == words
    decreases |words|
  {
    if words == [] {
      SplitEmpty();
    } else if |words| == 1 {
      var w := words[0];
      assert w in words;
      assert w + [] == w;
      SplitFirstWord(w, []);
      SplitEmpty();
    } else {
      var w := words[0];
      assert w in words;
      assert forall v :: v in words[1..] ==> v in words;
      var rest := Join(" ", words[1..]);
      assert Join(" ", words) == w + ([' '] + rest);
      SplitFirstWord(w, [' '] + rest);
      SplitSkipSpace(' ', rest);
      SplitJoin(words[1..]);
    }
  }

  /** A single-spaced string has nothing to strip. */
  lemma SingleSpacedTrimmed(s: string)
    requires SingleSpaced(s)
    ensures Strip(s) == s
  {
    if s != [] {
      assert s[0] in s && s[|s| - 1] in s;
    }
    StripTrimmed(s);
  }

  /** `str.strip()` returns a string with no whitespace at either end unchanged. */
  lemma StripTrimmed(s: string)
    requires s == [] || (!IsSpace(s[0]) && !IsSpace(s[|s| - 1]))
    ensures Strip(s) == s
  {
    assert LeadingWs(s) == 0;
    assert s[0..] == s;
    assert TrimEnd(s) == |s|;
  }

  // ----- Ends of strings and joins -----

  /** A string that starts with another character does not start with `p`. */
  lemma FirstDiffers(s: string, p: string)
    requires s != [] && p != [] && s[0] != p[0]
    ensures !StartsWith(s, p)
  {
    if |p| <= |s| {
      assert s[..|p|][0] == s[0];
    }
  }

  /** A string that ends with another character does not end with `p`. */
  lemma LastDiffers(s: string, p: string)
    requires s != [] && p != [] && s[|s| - 1] != p[|p| - 1]
    ensures !EndsWith(s, p)
  {
    if |p| <= |s| {
      assert s[|s| - |p|..][|p| - 1] == s[|s| - 1];
    }
  }

  /** A suffix of a string that does not end with `p` does not end with it either. */
  lemma NotEndsWithSuffix(s: string, n: nat, p: string)
    requires n <= |s| && !EndsWith(s, p)
    ensures !EndsWith(s[n..], p)
  {
    if |p| <= |s| - n {
      assert s[n..][|s| - n - |p|..] == s[|s| - |p|..];
    }
  }

  /** The leading whitespace of a string that ends in a non-whitespace character does not depend on
      what follows it. */
  lemma {:induction false} LeadingWsAppend(a: string, rest: string)
    requires a != [] && !IsSpace(a[|a| - 1])
    ensures LeadingWs(a + rest) == LeadingWs(a) < |a|
    decreases |a|
  {
    if IsSpace(a[0]) {
      assert (a + rest)[1..] == a[1..] + rest;
      LeadingWsAppend(a[1..], rest);
    }
  }

  /** A join of words starts as its first word does. */
  lemma JoinFirst(sep: string, parts: seq<string>)
    requires parts != [] && parts[0] != []
    ensures Join(sep, parts) != [] && Join(sep, parts)[0] == parts[0][0]
  {
  }

  /** A join of words ends as its last word does. */
  lemma {:induction false} JoinEnd(sep: string, parts: seq<string>)
    requires parts != [] && parts[|parts| - 1] != []
    ensures Join(sep, parts) != []
    ensures Join(sep, parts)[|Join(sep, parts)| - 1] == parts[|parts| - 1][|parts[|parts| - 1]| - 1]
    decreases |parts|
  {
    if |parts| > 1 {
      JoinEnd(sep, parts[1..]);
    }
  }

  /** A join splits at any separator into the joins of the words on either side. */
  lemma {:induction false} JoinAt(sep: string, parts: seq<string>, k: nat)
    requires 0 < k < |parts|
    ensures Join(sep, parts) == Join(sep, parts[..k]) + (sep + Join(sep, parts[k..]))
    decreases k
  {
    if k > 1 {
      JoinAt(sep, parts[1..], k - 1);
      assert parts[..k][1..] == parts[1..][..k - 1];
      assert parts[1..][k - 1..] == parts[k..];
    }
  }

  /** `ReplaceChar` on every word. */
  function ReplaceEach(words: seq<string>, a: char, b: char): (r: seq<string>)
    ensures |r| == |words|
  {
    seq(|words|, i requires 0 <= i < |words| => ReplaceChar(words[i], a, b))
  }

  lemma ReplaceAppend(x: string, y: string, a: char, b: char)
    ensures ReplaceChar(x + y, a, b) == ReplaceChar(x, a, b) + ReplaceChar(y, a, b)
  {
    assert forall i :: 0 <= i < |x + y| ==>
      ReplaceChar(x + y, a, b)[i] == (ReplaceChar(x, a, b) + ReplaceChar(y, a, b))[i];
  }

  /** Replacing a character that the separator does not hold can be done word by word. */
  lemma {:induction false} ReplaceJoin(sep: string, words: seq<string>, a: char, b: char)
    requires a !in sep
    ensures ReplaceChar(Join(sep, words), a, b) == Join(sep, ReplaceEach(words, a, b))
    decreases |words|
  {
    if |words| > 1 {
      var x := words[0] + sep;
      ReplaceAppend(x, Join(sep, words[1..]), a, b);
      ReplaceAppend(words[0], sep, a, b);
      assert ReplaceChar(sep, a, b) == sep;
      ReplaceJoin(sep, words[1..], a, b);
      assert ReplaceEach(words, a, b)[1..] == ReplaceEach(words[1..], a, b);
    }
  }

  // ----- Deleting whitespace -----

  /** `r` is `s` with some of its whitespace characters deleted: every other character of `s` is
      kept, in order, and nothing is inserted. */
  predicate DropsWs(s: string, r: string)
    decreases |s|
  {
    if s == [] then r == []
    else (r != [] && r[0] == s[0] && DropsWs(s[1..], r[1..])) || (IsSpace(s[0]) && DropsWs(s[1..], r))
  }

  lemma {:induction false} DropsSelf(s: string)
    ensures DropsWs(s, s)
    decreases |s|
  {
    if s != [] {
      DropsSelf(s[1..]);
    }
  }

  lemma {:induction false} DropsAll(s: string)
    requires AllSpace(s)
    ensures DropsWs(s, [])
    decreases |s|
  {
    if s != [] {
      assert s[0] in s;
      assert forall c :: c in s[1..] ==> c in s;
      DropsAll(s[1..]);
    }
  }

  /** Deletions in two pieces make a deletion in their concatenation. */
  lemma {:induction false} DropsAppend(s1: string, r1: string, s2: string, r2: string)
    requires DropsWs(s1, r1) && DropsWs(s2, r2)
    ensures DropsWs(s1 + s2, r1 + r2)
    decreases |s1|
  {
    if s1 == [] {
      assert r1 == [];
      assert s1 + s2 == s2 && r1 + r2 == r2;
    } else {
      var s := s1 + s2;
      assert s[0] == s1[0] && s[1..] == s1[1..] + s2;
      if r1 != [] && r1[0] == s1[0] && DropsWs(s1[1..], r1[1..]) {
        DropsAppend(s1[1..], r1[1..], s2, r2);
        var r := r1 + r2;
        assert r[0] == r1[0] && r[1..] == r1[1..] + r2;
      } else {
        DropsAppend(s1[1..], r1, s2, r2);
      }
    }
  }

  /** Deleting whitespace twice is deleting whitespace. */
  lemma {:induction false} DropsTrans(a: string, b: string, c: string)
    requires DropsWs(a, b) && DropsWs(b, c)
    ensures DropsWs(a, c)
    decreases |a|
  {
    if a != [] {
      if b != [] && b[0] == a[0] && DropsWs(a[1..], b[1..]) {
        if c != [] && c[0] == b[0] && DropsWs(b[1..], c[1..]) {
          DropsTrans(a[1..], b[1..], c[1..]);
        } else {
          DropsTrans(a[1..], b[1..], c);
        }
      } else {
        DropsTrans(a[1..], b, c);
      }
    }
  }

  /** `str.strip()` only deletes whitespace. */
  lemma StripDrops(s: string)
    ensures DropsWs(s, Strip(s))
  {
    var r := Strip(s);
    var i := LeadingWs(s);
    var front, back := s[..i], s[i + |r|..];
    assert s == front + (r + back);
    DropsAll(front);
    DropsAll(back);
    DropsSelf(r);
    DropsAppend(r, r, back, []);
    assert r + [] == r;
    DropsAppend(front, [], r + back, r);
    assert [] + r == r;
  }
}
